=== FILE: README.md ===
# Three-way text merge of warbler, in Dafny

This project models the note-merging engine of warbler. Two revisions of it are modelled.

- **The live revision** is `shared/diff.ts`. It handles a common ancestor text ("original"), the text the store holds ("current") and an incoming edit ("proposed"):
  - it splits each text into lines;
  - it diffs current and proposed against the original, with a longest-common-subsequence table;
  - it groups the diff into runs and folds an insertion run followed by a deletion run into an edit;
  - it aligns the two diffs on their original-line index;
  - it merges row by row.
  When both sides rewrite one row to similar texts, `conflictHandler` merges that row again at a finer granularity: sentences of a paragraph, then white-space separated words. At the word level, current wins.
- **The earlier revision** is `server/diff.ts`. It has a run-based driver with one cursor per side, and a conflict handler that splits the current text on the proposal.

Two smaller parts of the client are modelled as well:
- `ellipsize` and `appendPiece` from `src/util.ts`;
- `CleanSettings` and `ResetSettings` from `src/settings.ts`. These take the settings record as an argument instead of mutating the module-level `_config`.

Modules, leaf first:

- `Options`, `Text`: JavaScript's `trim`, `join`, `filter` and `split` by a string, over `seq<char>`.
- `Splitters`: the matches of `/\s+/g` and `/([^.!?]+[.!?])/g`, `splitWithTrail`, and `split` by a regular expression.
- `EditDistance`: `levenshtein` and `similarity`. The ratio is kept exact as a fraction. `similarity >= 0.25` becomes `4 * num >= den`.
- `SequenceDiff`: the LCS table, the backtrack and the grouping into runs. Both revisions share these.
- `SharedDiff` and `Alignment`: the live `diff` with its edit folding, `flattenDiffOp` and `alignDiffs`.
- `SharedMerge`: `autoThreeWayMerge`, `getDiffChange`, `conflictHandler` and `autoThreeWayTextMerge` of the live revision.
- `ServerDiff` and `ServerMerge`: the earlier revision. Its conflict recursion carries explicit fuel, and running out is the result `OutOfFuel`.
- `Util`, `Settings`.

Where the code behaves differently from what a three-way merge is usually expected to do, the model follows the code:

- **A current-only deletion does not fast-forward.** Take a line that current deleted and that proposed kept. The live driver puts the original line back and reports the proposed copy as discarded (`SharedMergeExamples.CurrentDeletionReverted`). It is not simply dropped. Fast-forwarding from the other side does hold: `SharedMerge.FastForward` shows that when current equals the original, the result is the proposal.
- **Deleted on one side, rewritten on the other.** When current deleted a line that proposed rewrote, the live driver also restores the original line and discards the proposal's text. It does not keep the rewrite (`SharedMerge.RowRules`).
- **The duplicate-insertion check looks at all proposed lines.** A current-only insertion is dropped when its text is any line of the proposal, not only a line the proposal inserted (`shared/diff.ts:133`). The earlier revision does check only the proposal's insertions (`ServerMerge.ProposedInserts`).
- **Two similar rewrites are escalated, not both kept.** Take original "Hello world", current "Hello there world" and proposed "Hello brave world". The two lines are similar enough to escalate. The word level then keeps "there " and gives up "brave ". The paragraph level replaces that discard with the whole proposed paragraph. Both tokens are not kept side by side.
- **`ellipsize` is not marked exactly when it truncates.** Its result ends with "..." when it truncated *or* when the text already ended that way (`Util.EllipsizeMarks`). With a limit below 3, a cut text comes out longer than the limit (`Util.Ellipsize`, `Util.EllipsizeSmallLimit`).

## Model

| member | source | states |
|---|---|---|
| Text.Trim | shared/diff.ts:47-49 | the result neither begins nor ends with white space, and it is empty exactly when the input is all white space |
| Text.TrimSlice | shared/diff.ts:47-49 | the trimmed text is one contiguous slice of the input, and only white space lies before and after it |
| Text.TrimIdempotent | shared/diff.ts:49 | trimming a trimmed fragment changes nothing |
| Text.Filter | shared/diff.ts:47 | an element is kept exactly when it was in the input and passes the test; every passing element keeps its multiplicity and every failing one is gone; the kept elements keep their order (a subsequence of the input) |
| Text.FilterAppend | shared/diff.ts:47 | filtering a concatenation is the concatenation of the filtered parts |
| Text.SplitOn | shared/diff.ts:19-21 | joining the pieces with the separator gives back the text; a non-empty separator yields at least one piece, no piece contains it, and the first piece ends at the separator's first occurrence; the empty separator yields one piece per character |
| Text.SplitOnLeftmost | shared/diff.ts:19-21 | the split is leftmost: with no occurrence the text is the only piece, otherwise the first piece runs up to the first occurrence and the rest is the split of what follows it |
| Text.IndexOfFirst | shared/diff.ts:19-21 | the occurrence the search returns is the leftmost one: no occurrence starts between the search start and it |
| Text.SplitOnCharPieces | shared/diff.ts:19-21 | after splitting on a single character (the newline), no piece contains that character |
| Splitters.SpaceMatches | shared/diff.ts:40 | the matches of `/\s+/g` are ordered, non-empty and maximal; a character lies inside a match exactly when it is white space |
| Splitters.SentenceMatches | shared/diff.ts:40 | each match of `/([^.!?]+[.!?])/g` is a run of non-terminators ending in one terminator; an unmatched non-terminator has no terminator after it |
| Splitters.SplitWithTrailLossless | shared/diff.ts:53-68 | the pieces of `splitWithTrail` concatenate back to the input, for any ordered matches |
| Splitters.TrailPiecesNonEmpty | shared/diff.ts:53-68 | when no match is empty, no piece of `splitWithTrail` is empty |
| Splitters.TrailPiecesGaps | shared/diff.ts:53-68 | piece k of `splitWithTrail` runs from the end of match k-1 (or the start) to the end of match k; the text after the last match is one more piece exactly when it is not empty |
| Splitters.RegexSplit | server/diff.ts:29-30 | splitting by a regular expression with `m` matches gives `2m + 1` pieces when it has a capture group and `m + 1` otherwise |
| Splitters.RegexSplitCapturesLossless | server/diff.ts:29-30 | when the expression captures its whole match, the pieces concatenate back to the text |
| Splitters.RegexSplitInterleaves | server/diff.ts:29-30 | the pieces of a capturing split are the pieces of the plain split with the matched texts placed between them |
| Splitters.RegexSplitPlainLossless | server/diff.ts:29-30 | putting the matched texts back between the pieces of a plain split gives back the text |
| Splitters.RegexSplitGaps | server/diff.ts:29-30 | the k-th piece of a plain split is exactly the text between the end of match k-1 (or the start) and the start of match k (or the end) |
| EditDistance.ComputeLevenshtein | shared/diff.ts:163-185 | the table-filling loops return the edit distance defined by the recurrence |
| EditDistance.LevenshteinZeroIff | shared/diff.ts:163-185 | the distance is zero exactly when the two strings are equal |
| EditDistance.LevenshteinEmpty | shared/diff.ts:167-168 | the distance to or from the empty string is the other string's length |
| EditDistance.LevenshteinBounds | shared/diff.ts:163-185 | the distance lies between the difference of the lengths and the longer length |
| EditDistance.Similarity | shared/diff.ts:190-194 | the ratio lies in [0, 1] with a positive denominator, and it is 1 exactly when the strings are equal (two empty strings included) |
| EditDistance.SimilarEnoughIff | shared/diff.ts:111-112 | the 0.25 gate holds exactly when both strings are empty or four times the distance is at most three times the longer length |
| EditDistance.SimilarEnoughSelf | shared/diff.ts:111-112 | identical texts always pass the gate |
| SequenceDiff.BacktrackNew | shared/diff.ts:217-231 | the backtrack's equal and inserted lines spell the rest of the variant |
| SequenceDiff.BacktrackOld | shared/diff.ts:217-231 | the backtrack's equal and deleted lines spell the rest of the original |
| SequenceDiff.BacktrackLcs | shared/diff.ts:203-231 | the number of lines the backtrack keeps equal is the longest-common-subsequence length from the table |
| SequenceDiff.BacktrackOrder | shared/diff.ts:217-231 | original-line indices start at the start index, never decrease and stay inside the original; no line is an edit |
| SequenceDiff.BacktrackSelf | shared/diff.ts:221-223 | a sequence diffed against itself is all equal lines |
| SequenceDiff.Group | shared/diff.ts:233-242 | flattening the runs gives back the lines; runs are non-empty, neighbours differ in kind, and the first run has the first line's kind |
| SequenceDiff.GroupUnique | shared/diff.ts:233-242 | grouping the flattening of any such run list gives back that list, so the grouping is the only one |
| SequenceDiff.FlattenAppend | shared/diff.ts:287-288 | flattening distributes over concatenation of run lists |
| SharedDiff.CollapseEdits | shared/diff.ts:244-255 | the first run keeps its kind, or becomes an edit when it was an insertion; non-empty runs stay non-empty |
| SharedDiff.CollapseEditsCounts | shared/diff.ts:244-255 | folding keeps the variant's lines and the number of equal lines |
| SharedDiff.CollapseEditsLines | shared/diff.ts:244-255 | every folded line is an input line, or an inserted line relabelled as an edit |
| SharedDiff.CollapseEditsSorted | shared/diff.ts:244-255 | folding keeps original-line indices in non-decreasing order |
| SharedDiff.CollapseEditsSeparates | shared/diff.ts:244-255 | after folding, no insertion run is directly followed by a deletion run |
| SharedDiff.CollapseEditsFolds | shared/diff.ts:244-255 | every insertion run directly followed by a deletion run shows up as an edit run with the inserted lines |
| SharedDiff.CollapseEditsAbsorbs | shared/diff.ts:244-255 | on grouped runs without edits, no edit run is directly followed by a deletion run: the deletion an edit replaces is gone |
| SharedDiff.CollapseEditsSurvivors | shared/diff.ts:244-255 | folding keeps every run except a deletion run directly after an insertion run, in order, and relabels an insertion run as an edit exactly when a deletion run follows it |
| SharedDiff.Diff | shared/diff.ts:199-258 | the diff's non-deleted lines spell the variant; its equal lines are a longest common subsequence; indices are sorted and anchored in the original; runs are non-empty; no insertion run precedes a deletion run, and no edit run is followed by the deletion run it absorbed |
| SharedDiff.DiffRuns | shared/diff.ts:233-257 | the runs of the diff are the grouped runs of the backtrack with only the absorbed deletion runs removed and their insertion runs relabelled as edits |
| SharedDiff.DiffSelf | shared/diff.ts:199-258 | a sequence diffed against itself holds only equal lines |
| Alignment.AlignCovers | shared/diff.ts:283-327 | every current line and every proposed line lands in exactly one row, in its order |
| Alignment.AlignShape | shared/diff.ts:283-327 | every row has a side; two sides share one index; the row's original is the line at that index |
| Alignment.AlignSorted | shared/diff.ts:283-327 | for sorted diffs, the rows come out in non-decreasing original-line order |
| Alignment.AlignSelf | shared/diff.ts:283-327 | a diff aligned with itself pairs every line with itself |
| Alignment.AlignRules | shared/diff.ts:295-322 | the pairing step: a line alone when the other side is used up; equal indices share a row unless a current insertion faces a proposed non-insertion, which goes alone; otherwise the smaller index goes alone; each row carries the original line at its index |
| SharedMerge.Finer | shared/diff.ts:31 | the next granularity is never the file, and above the sentence level it is exactly one level finer, so the ladder ends |
| SharedMerge.SplitAt | shared/diff.ts:40-43 | the units of a paragraph or a sentence concatenate back to the text |
| SharedMerge.SplitAtGaps | shared/diff.ts:40-43 | each unit ends at the end of a match of the granularity's pattern and starts where the previous one ended; the text after the last match is one more unit when it is not empty |
| SharedMerge.Conflict | shared/diff.ts:26-50 | at sentence level, current wins and a differing proposal is the one discard; above it, discards are trimmed and non-blank; at paragraph level, the discards are the whole trimmed proposal when the sentence merge gave something up and the proposal is not blank, and nothing when the sentence merge gave nothing up; at file level, the discards are the paragraph merge's discards with the blank ones dropped and the rest trimmed, in order |
| SharedMerge.ConflictFastForward | shared/diff.ts:26-50 | above the sentence level, a conflict whose current is the original resolves to the proposal with no discards |
| SharedMerge.Cleaned | shared/diff.ts:47-49 | cleaned discards are non-blank and trimmed; every non-blank input is reported trimmed, and every output is a non-blank input trimmed; one non-blank discard becomes its trimmed self |
| SharedMerge.CleanedAppend | shared/diff.ts:47-49 | cleaning a concatenation cleans each part in place, so the reported discards keep their order |
| SharedMerge.RowRules | shared/diff.ts:107-135 | the decision table of a row: two kept lines with the same text give that text; similar rewrites escalate to a conflict at the same depth, dissimilar ones are both kept, current first; a current deletion facing a proposed line that is not a deletion restores the original and discards that line; a rewrite facing an unchanged line wins; a lone current rewrite survives only when the proposal lacks that text; a proposed rewrite facing no change wins; a proposed deletion facing a kept or deleted line gives nothing |
| SharedMerge.MergeAgrees | shared/diff.ts:89-138 | when current and proposed are equal, the merge returns them with no discards, whatever the original |
| SharedMerge.ConflictAgrees | shared/diff.ts:26-50 | a conflict between identical texts resolves to that text with no discards |
| SharedMerge.TextMergeAgrees | shared/diff.ts:16-24 | agreeing texts merge to themselves with no discards |
| SharedMerge.TextMergeIdentity | shared/diff.ts:16-24 | merging a text with itself three times gives it back with no discards |
| SharedMerge.FastForward | shared/diff.ts:89-138 | when current is still the original, the merge returns the proposal with no discards |
| SharedMerge.TextMergeFastForward | shared/diff.ts:16-24 | the same for whole texts split on newlines |
| SharedMerge.MergeSourced | shared/diff.ts:89-138 | nothing is invented: at sentence level, every merged unit is a unit of an input; every discard is a proposed unit or a trimmed, non-blank conflict fragment |
| SharedMergeExamples.CurrentDeletionReverted | shared/diff.ts:125-131 | a line deleted only by current comes back, and the proposal's copy is also reported as discarded |
| SharedMergeExamples.ConflictKeepsProposal | shared/diff.ts:26-50 | a file-level conflict between "x" and "y" over an empty original resolves to "xy": the proposal reaches the result |
| ServerDiff.Diff | server/diff.ts:187-232 | the runs spell both the variant and the original; their equal lines are a longest common subsequence; runs are non-empty and never edits; neighbouring runs differ in kind |
| ServerDiff.DiffSelf | server/diff.ts:187-232 | a sequence diffed against itself is one equal run, or nothing |
| ServerDiff.DiffFromEmpty | server/diff.ts:187-232 | diffed from nothing, a sequence is one insertion run, or nothing |
| ServerMerge.ProposedInserts | server/diff.ts:43-51 | a text is in the set exactly when some insertion run of the proposal holds it |
| ServerMerge.Fresh | server/diff.ts:84-88 | a current insertion keeps exactly the lines the proposal does not insert, each as often as it occurs, in their order |
| ServerMerge.Merge | server/diff.ts:39-146 | a finished merge never reports a discarded fragment |
| ServerMerge.Conflict | server/diff.ts:19-37 | a finished conflict never reports a discarded fragment |
| ServerMerge.TextMerge | server/diff.ts:9-17 | a finished text merge never reports a discarded fragment |
| ServerMerge.WalkRules | server/diff.ts:58-143 | equal runs emit the shorter run's length of current lines and leave the rest at its cursor; a proposed insertion facing anything but a current insertion is emitted whole, in front of the rest of the walk; a current insertion facing anything but a proposed one is emitted minus the proposal's insertions, in front of the rest; two insertions are paired and then the walk goes on past both; deletions emit nothing, and move the other cursor only past an equal run |
| ServerMerge.PairRules | server/diff.ts:92-123 | concurrent insertions pair up by index, each pair in front of the pairing of the rest: identical lines are emitted once, dissimilar ones current first, similar ones as their conflict's text (or out of fuel); leftover current lines are emitted unless the proposal inserts them, leftover proposed lines always |
| ServerMerge.MergeAgrees | server/diff.ts:39-146 | agreeing sides merge to themselves with no discards, for any fuel |
| ServerMerge.TextMergeAgrees | server/diff.ts:9-17 | agreeing texts merge to themselves with no discards, for any fuel |
| ServerMerge.ConflictIgnoresProposal | server/diff.ts:29-36 | when splitting current on the proposal gives the same pieces as the granularity's pattern, the result is current's pieces joined by spaces: the proposal has no effect |
| ServerMerge.ConflictDropsProposal | server/diff.ts:19-37 | a conflict between "x" and "y" resolves to "x", and "y" is neither merged nor reported |
| ServerMerge.DeletionDropsUnchanged | server/diff.ts:134-137 | merging original "a", "b" with current unchanged and a proposal that deletes "a" yields nothing: the kept "b" is lost |
| Util.SliceEnd | src/util.ts:9 | a slice end lies inside the string; a non-negative end is clamped to the length, and a negative one counts back from the length, stopping at 0 |
| Util.Ellipsize | src/util.ts:7-12 | short texts come back unchanged; longer ones become a prefix of the text plus "..."; with a limit of at least 3 no result exceeds the limit, and a cut result is exactly the limit long and keeps the first limit-minus-3 characters; below 3 a cut result keeps the first length-plus-limit-minus-3 characters (none when that is negative) and is longer than the limit |
| Util.EllipsizeMarks | src/util.ts:7-12 | with a limit of at least 3, the result ends in "..." exactly when the text was cut or already ended that way |
| Util.EllipsizeSmallLimit | src/util.ts:9 | with a limit of 2, a six-character text becomes five characters plus "...", longer than the limit |
| Util.AppendPiece | src/util.ts:14-17 | an empty text becomes the piece; otherwise the result starts with the text, ends with the piece, and has the delimiter's length between them |
| Util.AppendPieceJoins | src/util.ts:14-17 | appending to a non-empty joined list is joining the list with the piece added |
| Settings.LoopLinksOnce | src/settings.ts:150-152 | looping over the configured functions links the summary function once: the second visit finds what the first made or found |
| Settings.KnownServers | src/settings.ts:161 | a server stays exactly when its type is a pipeline key; survivors keep their order; a list of known servers is unchanged |
| Settings.Link | src/settings.ts:164-167 | afterwards a non-empty key names a server; at most the forced server is appended, and nothing is appended when the key already names one |
| Settings.CleanServers | src/settings.ts:161-168 | cleaned servers all have known types; when the summary key is non-empty and names no known server, the list is the known servers plus one forced server for that key, and otherwise exactly the known servers; a non-empty summary key names a server |
| Settings.CleanServersIdempotent | src/settings.ts:161-168 | cleaning a cleaned server list changes nothing |
| Settings.CleanSettings | src/settings.ts:155-169 | absent AI functions become empty ones and present ones are kept, as are the other fields; the server list is the known-type servers of the stored list (an absent list counts as empty), plus one forced server exactly when the summary key is non-empty and names none of them; afterwards a non-empty summary key names a server |
| Settings.ResetSettings | src/settings.ts:170-177 | the reset record is version 1 with no servers and empty AI functions, has no transcript type, transcript URL or backend override, and cleaning leaves it unchanged |
| Settings.CleanIdempotent | src/settings.ts:155-169 | cleaning a cleaned record changes nothing |
| Settings.CleanIgnoresAudioKey | src/settings.ts:164-167 | the cleaned servers do not depend on the audio-cleaning function, whose key is never linked |

## Left out

- `rejoiner` (shared/diff.ts:72-87) is never called, so it is not modelled.
- The commented-out `Intl.Segmenter` path is not modelled: it is dead code.
- Regular expressions are modelled only as the two patterns the code uses, each as a matcher written out by hand. There is no general regular-expression engine.
- Floating point is not modelled. `similarity` is an exact fraction, and the gate `>= 0.25` is compared exactly. A rounding difference at the boundary is not modelled.
- Strings are sequences of characters. UTF-16 surrogate pairs and the engine's exact Unicode tables for `\s` and `trim` are approximated by the list in `Text.IsSpace`.
- The `finished` pseudo-operation is modelled as an exhausted cursor in `ServerMerge.Walk` and as a missing side (`None`) in `SharedMerge.GetDiffChange`.
- The "diff type not implemented" throw in `getDiffChange` cannot be reached: the four kinds are matched exhaustively.
- The "logic error" throw in `alignDiffs` (shared/diff.ts:293) cannot be reached, since a row is made only while a line is left.
- The branch at shared/diff.ts:309 repeats the test of line 306, so it can never be taken. It is left out of `Alignment.Align`.
- ServerMerge.Merge: the earlier revision's conflict recursion is bounded by an explicit `fuel` parameter. Every statement about `Done` results holds for any fuel, but what the code does beyond the fuel bound (a deeper nesting, or no end) is not modelled.
- The server's `levenshtein` and `similarity` (server/diff.ts:151-182) are the same as the live ones, and they are modelled once, in `EditDistance`.
- The earlier revision's mutation of a run in place (`op.lines = op.lines.slice(n)`) is modelled as replacing the head run under the cursor.
- `_config` is passed as an argument and returned instead of being mutated. Loading and saving it, `audioPipelines`, the backend poll and the rest of `src/settings.ts` are I/O or UI and are not modelled.
- Malformed stored settings, such as a server `type` that is not a string, are not modelled: record fields are typed.
- The rest of `src/util.ts` (deep copies, DOM helpers, timers, UUIDs) is not part of this model.
- The document store's last-write-wins race around the merge is not modelled: it lies outside the merge functions.

## Findings

| source | as written | input that shows it | evidently intended | confidence | as-written member | corrected member |
|---|---|---|---|---|---|---|
| server/diff.ts:30-35 | the current text is split on the proposal instead of on the granularity pattern, and the filter keeps only blank discards, so the proposal never reaches the merge and a conflict can never report a discard | a file-level conflict between "x" and "y" resolves to "x" with no discard | split the proposal on the same pattern as current, and keep the non-blank discards (as the live revision does) | not executed | ServerMerge.ConflictDropsProposal | SharedMerge.ConflictFastForward |
| server/diff.ts:134-137 | a proposed deletion run facing a current equal run advances past the whole equal run, so unchanged lines after the deleted one are lost | original "a", "b"; current "a", "b"; proposed "b" merges to nothing | when current is unchanged, the result is the proposal ("b") | not executed | ServerMerge.DeletionDropsUnchanged | SharedMerge.FastForward |

=== FILE: alignment.dfy ===
/**
 * `alignDiffs` of the live revision (shared/diff.ts): both diffs are
 * flattened to one record per line, then merged on their original-line index
 * into rows holding the current side, the proposed side, or both.
 */
module Alignment {
  import opened Options
  import opened SequenceDiff

  /** One aligned row (`MergeLine`). */
  datatype MergeLine = MergeLine(original: Option<string>, current: Option<FlatLine>, proposed: Option<FlatLine>)

  /** `original[k]`, which is `undefined` past the end. */
  function At(o: seq<string>, k: nat): (r: Option<string>)
    ensures r.Some? <==> k < |o|
  {
    if k < |o| then Some(o[k]) else None
  }

  /**
   * The merge of the two flattened diffs. On equal indices a current
   * insertion facing a proposed non-insertion goes first on its own; every
   * other pair shares a row. The source's second test of the same condition
   * (shared/diff.ts:309) can never succeed and is left out; its "logic
   * error" throw cannot happen because a row is only made while a line is left.
   */
  function Align(o: seq<string>, cf: seq<FlatLine>, pf: seq<FlatLine>): seq<MergeLine>
    decreases |cf| + |pf|
  {
    if |cf| == 0 && |pf| == 0 then []
    else if |pf| == 0 then [MergeLine(At(o, cf[0].originalLine), Some(cf[0]), None)] + Align(o, cf[1..], pf)
    else if |cf| == 0 then [MergeLine(At(o, pf[0].originalLine), None, Some(pf[0]))] + Align(o, cf, pf[1..])
    else
      var a, b := cf[0], pf[0];
      if a.originalLine == b.originalLine then
        if a.kind == Insert && b.kind != Insert then
          [MergeLine(At(o, a.originalLine), Some(a), None)] + Align(o, cf[1..], pf)
        else
          [MergeLine(At(o, a.originalLine), Some(a), Some(b))] + Align(o, cf[1..], pf[1..])
      else if a.originalLine < b.originalLine then
        [MergeLine(At(o, a.originalLine), Some(a), None)] + Align(o, cf[1..], pf)
      else
        [MergeLine(At(o, b.originalLine), None, Some(b))] + Align(o, cf, pf[1..])
  }

  function AlignDiffs(o: seq<string>, current: seq<DiffOp>, proposed: seq<DiffOp>): seq<MergeLine> {
    Align(o, Flatten(current), Flatten(proposed))
  }

  /** The current sides of the rows, in row order. */
  function Currents(rows: seq<MergeLine>): seq<FlatLine> {
    if |rows| == 0 then []
    else (if rows[0].current.Some? then [rows[0].current.value] else []) + Currents(rows[1..])
  }

  /** The proposed sides of the rows, in row order. */
  function Proposeds(rows: seq<MergeLine>): seq<FlatLine> {
    if |rows| == 0 then []
    else (if rows[0].proposed.Some? then [rows[0].proposed.value] else []) + Proposeds(rows[1..])
  }

  /** The original-line index a row is keyed on. */
  function RowLine(row: MergeLine): nat {
    if row.current.Some? then row.current.value.originalLine
    else if row.proposed.Some? then row.proposed.value.originalLine
    else 0
  }

  /** A row has a side, both sides share one index, and `original` is the line at that index. */
  predicate RowShape(o: seq<string>, row: MergeLine) {
    && (row.current.Some? || row.proposed.Some?)
    && (row.current.Some? && row.proposed.Some? ==>
          row.current.value.originalLine == row.proposed.value.originalLine)
    && row.original == At(o, RowLine(row))
  }

  predicate RowsSorted(rows: seq<MergeLine>) {
    forall p, q :: 0 <= p < q < |rows| ==> RowLine(rows[p]) <= RowLine(rows[q])
  }

  /** Every current line and every proposed line lands in exactly one row, in its original order. */
  lemma {:induction false} AlignCovers(o: seq<string>, cf: seq<FlatLine>, pf: seq<FlatLine>)
    ensures Currents(Align(o, cf, pf)) == cf
    ensures Proposeds(Align(o, cf, pf)) == pf
    decreases |cf| + |pf|
  {
    if |cf| > 0 || |pf| > 0 {
      AlignStep(o, cf, pf);
      var rows := Align(o, cf, pf);
      var r := rows[0];
      var cf' := if r.current.Some? then cf[1..] else cf;
      var pf' := if r.proposed.Some? then pf[1..] else pf;
      var rest := Align(o, cf', pf');
      HeadTail(rows);
      AlignCovers(o, cf', pf');
      SidesCons(r, rest);
      if r.current.Some? {
        HeadTail(cf);
      }
      if r.proposed.Some? {
        HeadTail(pf);
      }
    }
  }

  lemma HeadTail<T>(s: seq<T>)
    requires |s| > 0
    ensures s == [s[0]] + s[1..]
  {
  }

  /** One step of the alignment: the first row takes the head of each side it holds. */
  lemma AlignStep(o: seq<string>, cf: seq<FlatLine>, pf: seq<FlatLine>)
    requires |cf| > 0 || |pf| > 0
    ensures var rows := Align(o, cf, pf);
      && |rows| > 0
      && (rows[0].current.Some? || rows[0].proposed.Some?)
      && (rows[0].current.Some? ==> |cf| > 0 && rows[0].current.value == cf[0])
      && (rows[0].proposed.Some? ==> |pf| > 0 && rows[0].proposed.value == pf[0])
      && rows[1..] == Align(o, if rows[0].current.Some? then cf[1..] else cf,
                               if rows[0].proposed.Some? then pf[1..] else pf)
  {
  }

  /**
   * The pairing rule at the heads. When one flattened diff is used up, the
   * other's next line goes alone. When both have a line: on equal indices
   * they share a row, except that a current insertion facing a proposed
   * non-insertion goes first on its own; on different indices the line with
   * the smaller index goes alone. Each row carries the original line at its
   * index, and alignment resumes with what is left of each side.
   */
  lemma AlignRules(o: seq<string>, cf: seq<FlatLine>, pf: seq<FlatLine>)
    requires |cf| > 0 || |pf| > 0
    ensures |pf| == 0 ==>
      Align(o, cf, pf) == [MergeLine(At(o, cf[0].originalLine), Some(cf[0]), None)] + Align(o, cf[1..], pf)
    ensures |cf| == 0 ==>
      Align(o, cf, pf) == [MergeLine(At(o, pf[0].originalLine), None, Some(pf[0]))] + Align(o, cf, pf[1..])
    ensures |cf| > 0 && |pf| > 0 && cf[0].originalLine == pf[0].originalLine
            && !(cf[0].kind == Insert && pf[0].kind != Insert) ==>
      Align(o, cf, pf) == [MergeLine(At(o, cf[0].originalLine), Some(cf[0]), Some(pf[0]))] + Align(o, cf[1..], pf[1..])
    ensures |cf| > 0 && |pf| > 0 && cf[0].originalLine == pf[0].originalLine
            && cf[0].kind == Insert && pf[0].kind != Insert ==>
      Align(o, cf, pf) == [MergeLine(At(o, cf[0].originalLine), Some(cf[0]), None)] + Align(o, cf[1..], pf)
    ensures |cf| > 0 && |pf| > 0 && cf[0].originalLine < pf[0].originalLine ==>
      Align(o, cf, pf) == [MergeLine(At(o, cf[0].originalLine), Some(cf[0]), None)] + Align(o, cf[1..], pf)
    ensures |cf| > 0 && |pf| > 0 && cf[0].originalLine > pf[0].originalLine ==>
      Align(o, cf, pf) == [MergeLine(At(o, pf[0].originalLine), None, Some(pf[0]))] + Align(o, cf, pf[1..])
  {
  }

  /** The one-step equations of `Currents` and `Proposeds`. */
  lemma SidesCons(r: MergeLine, rest: seq<MergeLine>)
    ensures Currents([r] + rest) == (if r.current.Some? then [r.current.value] else []) + Currents(rest)
    ensures Proposeds([r] + rest) == (if r.proposed.Some? then [r.proposed.value] else []) + Proposeds(rest)
  {
    assert ([r] + rest)[1..] == rest;
  }

  /** Every row is well formed, and a side it holds comes from the corresponding diff. */
  lemma {:induction false} AlignShape(o: seq<string>, cf: seq<FlatLine>, pf: seq<FlatLine>)
    ensures forall r :: r in Align(o, cf, pf) ==>
      && RowShape(o, r)
      && (r.current.Some? ==> r.current.value in cf)
      && (r.proposed.Some? ==> r.proposed.value in pf)
    decreases |cf| + |pf|
  {
    var rows := Align(o, cf, pf);
    if |cf| == 0 && |pf| == 0 {
    } else if |pf| == 0 {
      AlignShape(o, cf[1..], pf);
      assert rows[1..] == Align(o, cf[1..], pf);
    } else if |cf| == 0 {
      AlignShape(o, cf, pf[1..]);
      assert rows[1..] == Align(o, cf, pf[1..]);
    } else if cf[0].originalLine == pf[0].originalLine && !(cf[0].kind == Insert && pf[0].kind != Insert) {
      AlignShape(o, cf[1..], pf[1..]);
      assert rows[1..] == Align(o, cf[1..], pf[1..]);
    } else if cf[0].originalLine <= pf[0].originalLine {
      AlignShape(o, cf[1..], pf);
      assert rows[1..] == Align(o, cf[1..], pf);
    } else {
      AlignShape(o, cf, pf[1..]);
      assert rows[1..] == Align(o, cf, pf[1..]);
    }
    assert forall r :: r in rows ==> r == rows[0] || r in rows[1..];
  }

  /** Dropping the head of a sorted diff keeps it sorted and bounded below by that head. */
  lemma SortedTail(f: seq<FlatLine>, lo: nat)
    requires Sorted(f) && AllFrom(f, lo) && |f| > 0
    ensures Sorted(f[1..]) && AllFrom(f[1..], f[0].originalLine)
  {
    var t := f[1..];
    assert forall k :: 0 <= k < |t| ==> t[k] == f[k + 1];
  }

  /** A row in front of sorted rows that all come at or after it. */
  lemma RowsSortedCons(r: MergeLine, rest: seq<MergeLine>)
    requires RowsSorted(rest) && forall x :: x in rest ==> RowLine(r) <= RowLine(x)
    ensures RowsSorted([r] + rest)
  {
    var rows := [r] + rest;
    forall p, q | 0 <= p < q < |rows|
      ensures RowLine(rows[p]) <= RowLine(rows[q])
    {
      assert rows[q] == rest[q - 1];
      if p > 0 {
        assert rows[p] == rest[p - 1];
      }
    }
  }

  /** When both diffs are in order, the rows are in order of their original-line index. */
  lemma {:induction false} AlignSorted(o: seq<string>, cf: seq<FlatLine>, pf: seq<FlatLine>, lo: nat)
    requires Sorted(cf) && Sorted(pf) && AllFrom(cf, lo) && AllFrom(pf, lo)
    ensures RowsSorted(Align(o, cf, pf))
    ensures forall r :: r in Align(o, cf, pf) ==> lo <= RowLine(r)
    decreases |cf| + |pf|
  {
    if |cf| == 0 && |pf| == 0 {
    } else {
      var rows := Align(o, cf, pf);
      var r := rows[0];
      var k := RowLine(r);
      var cf', pf' := cf, pf;
      if |pf| == 0 {
        cf' := cf[1..];
      } else if |cf| == 0 {
        pf' := pf[1..];
      } else if cf[0].originalLine == pf[0].originalLine && !(cf[0].kind == Insert && pf[0].kind != Insert) {
        cf', pf' := cf[1..], pf[1..];
      } else if cf[0].originalLine <= pf[0].originalLine {
        cf' := cf[1..];
      } else {
        pf' := pf[1..];
      }
      var rest := Align(o, cf', pf');
      assert rows == [r] + rest;
      assert lo <= k;
      if cf' != cf {
        SortedTail(cf, lo);
      } else if |cf| > 0 {
        assert k <= cf[0].originalLine;
        assert AllFrom(cf, k);
      }
      if pf' != pf {
        SortedTail(pf, lo);
      } else if |pf| > 0 {
        assert k <= pf[0].originalLine;
        assert AllFrom(pf, k);
      }
      AlignSorted(o, cf', pf', k);
      RowsSortedCons(r, rest);
    }
  }

  /** The rows in which both sides are the same line of one diff. */
  function Pairs(o: seq<string>, f: seq<FlatLine>): seq<MergeLine> {
    if |f| == 0 then []
    else [MergeLine(At(o, f[0].originalLine), Some(f[0]), Some(f[0]))] + Pairs(o, f[1..])
  }

  /** A diff aligned with itself pairs every line with itself. */
  lemma {:induction false} AlignSelf(o: seq<string>, f: seq<FlatLine>)
    ensures Align(o, f, f) == Pairs(o, f)
    decreases |f|
  {
    if |f| > 0 {
      AlignSelf(o, f[1..]);
    }
  }
}

=== FILE: edit_distance.dfy ===
/**
 * The similarity scorer: Levenshtein distance by the classic dynamic
 * programme and the similarity ratio `1 - distance / max(|a|, |b|)`, kept
 * exact as a fraction instead of a floating-point number.
 */
module EditDistance {

  function Max(x: nat, y: nat): nat {
    if x >= y then x else y
  }

  function Min3(x: nat, y: nat, z: nat): nat {
    if x <= y && x <= z then x else if y <= z then y else z
  }

  /** Entry `dp[i][j]` of the table: the edit distance between `a[..i]` and `b[..j]`. */
  function Dist(a: string, b: string, i: nat, j: nat): nat
    requires i <= |a| && j <= |b|
    decreases i + j
  {
    if i == 0 then j
    else if j == 0 then i
    else if a[i - 1] == b[j - 1] then Dist(a, b, i - 1, j - 1)
    else 1 + Min3(Dist(a, b, i - 1, j), Dist(a, b, i, j - 1), Dist(a, b, i - 1, j - 1))
  }

  function Levenshtein(a: string, b: string): nat {
    Dist(a, b, |a|, |b|)
  }

  /**
   * The source's table-filling loops compute exactly `Levenshtein`. The table
   * is kept one row at a time: row `i` is computed from row `i - 1` only.
   */
  method ComputeLevenshtein(a: string, b: string) returns (d: nat)
    ensures d == Levenshtein(a, b)
  {
    var m, n := |a|, |b|;
    var prev := seq(n + 1, j requires 0 <= j <= n => j);
    for i := 1 to m + 1
      invariant |prev| == n + 1
      invariant forall j :: 0 <= j <= n ==> prev[j] == Dist(a, b, i - 1, j)
    {
      prev := NextRow(a, b, i, prev);
    }
    d := prev[n];
  }

  /** Row `i` of the table, filled left to right from row `i - 1`. */
  method NextRow(a: string, b: string, i: nat, prev: seq<nat>) returns (row: seq<nat>)
    requires 0 < i <= |a| && |prev| == |b| + 1
    requires forall j :: 0 <= j <= |b| ==> prev[j] == Dist(a, b, i - 1, j)
    ensures |row| == |b| + 1
    ensures forall j :: 0 <= j <= |b| ==> row[j] == Dist(a, b, i, j)
  {
    row := [i];
    for j := 1 to |b| + 1
      invariant |row| == j
      invariant forall j' :: 0 <= j' < j ==> row[j'] == Dist(a, b, i, j')
    {
      var v: nat;
      if a[i - 1] == b[j - 1] {
        v := prev[j - 1];
      } else {
        v := 1 + Min3(prev[j], row[j - 1], prev[j - 1]);
      }
      assert v == Dist(a, b, i, j);
      ghost var before := row;
      row := row + [v];
      assert forall j' :: 0 <= j' < j ==> row[j'] == before[j'];
    }
  }

  /** The distance never exceeds the longer prefix. */
  lemma {:induction false} DistAtMostLonger(a: string, b: string, i: nat, j: nat)
    requires i <= |a| && j <= |b|
    ensures Dist(a, b, i, j) <= Max(i, j)
    decreases i + j
  {
    if i > 0 && j > 0 {
      DistAtMostLonger(a, b, i - 1, j - 1);
    }
  }

  /** The distance is at least the difference in length. */
  lemma {:induction false} DistAtLeastLengthGap(a: string, b: string, i: nat, j: nat)
    requires i <= |a| && j <= |b|
    ensures Dist(a, b, i, j) >= i - j && Dist(a, b, i, j) >= j - i
    decreases i + j
  {
    if i > 0 && j > 0 {
      var diag := Dist(a, b, i - 1, j - 1);
      DistAtLeastLengthGap(a, b, i - 1, j - 1);
      if a[i - 1] != b[j - 1] {
        var up, left := Dist(a, b, i - 1, j), Dist(a, b, i, j - 1);
        DistAtLeastLengthGap(a, b, i - 1, j);
        DistAtLeastLengthGap(a, b, i, j - 1);
        assert Dist(a, b, i, j) == 1 + Min3(up, left, diag);
      }
    }
  }

  /** The distance is zero exactly when the two prefixes are identical. */
  lemma {:induction false} DistZeroIff(a: string, b: string, i: nat, j: nat)
    requires i <= |a| && j <= |b|
    ensures Dist(a, b, i, j) == 0 <==> a[..i] == b[..j]
    decreases i + j
  {
    if i > 0 && j > 0 {
      DistZeroIff(a, b, i - 1, j - 1);
      assert a[..i] == a[..i - 1] + [a[i - 1]];
      assert b[..j] == b[..j - 1] + [b[j - 1]];
      if a[..i] == b[..j] {
        assert a[i - 1] == a[..i][i - 1];
        assert b[j - 1] == b[..j][j - 1];
        assert a[..i - 1] == a[..i][..i - 1];
        assert b[..j - 1] == b[..j][..j - 1];
      }
    } else if i > 0 {
      assert |b[..j]| == 0 != |a[..i]|;
    } else if j > 0 {
      assert |a[..i]| == 0 != |b[..j]|;
    }
  }

  lemma LevenshteinZeroIff(a: string, b: string)
    ensures Levenshtein(a, b) == 0 <==> a == b
  {
    DistZeroIff(a, b, |a|, |b|);
    assert a[..|a|] == a && b[..|b|] == b;
  }

  /** Against the empty string the distance is the other string's length. */
  lemma LevenshteinEmpty(a: string)
    ensures Levenshtein(a, "") == |a| && Levenshtein("", a) == |a|
  {
  }

  lemma LevenshteinBounds(a: string, b: string)
    ensures Levenshtein(a, b) <= Max(|a|, |b|)
    ensures Levenshtein(a, b) >= |a| - |b| && Levenshtein(a, b) >= |b| - |a|
  {
    DistAtMostLonger(a, b, |a|, |b|);
    DistAtLeastLengthGap(a, b, |a|, |b|);
  }

  /** A ratio `num / den`. */
  datatype Ratio = Ratio(num: nat, den: nat)

  /** `similarity`: `1 - distance / max(|a|, |b|)`, and 1 for two empty strings. */
  function Similarity(a: string, b: string): (r: Ratio)
    ensures 0 < r.den && r.num <= r.den
    ensures r.num == r.den <==> a == b
  {
    if |a| == 0 && |b| == 0 then Ratio(1, 1)
    else
      var d := Levenshtein(a, b);
      LevenshteinBounds(a, b);
      LevenshteinZeroIff(a, b);
      Ratio(Max(|a|, |b|) - d, Max(|a|, |b|))
  }

  /** `similarity(a, b) >= 0.25`, the gate the merge driver applies before escalating. */
  predicate SimilarEnough(a: string, b: string) {
    var r := Similarity(a, b);
    4 * r.num >= r.den
  }

  /** The gate in integer form: three quarters of the longer length bound the distance. */
  lemma SimilarEnoughIff(a: string, b: string)
    ensures SimilarEnough(a, b) <==> (|a| == 0 && |b| == 0) || 4 * Levenshtein(a, b) <= 3 * Max(|a|, |b|)
  {
  }

  /** Identical fragments always pass the gate. */
  lemma SimilarEnoughSelf(a: string)
    ensures SimilarEnough(a, a)
  {
    var r := Similarity(a, a);
    assert r.num == r.den;
  }
}

=== FILE: options.dfy ===
/** An optional value, standing for JavaScript's `undefined` / missing property. */
module Options {

  datatype Option<T> = None | Some(value: T) {

    /** The wrapped value, or `default` when there is none (JavaScript's `??`). */
    function GetOr(default: T): T {
      match this
      case Some(v) => v
      case None => default
    }
  }
}

=== FILE: sequence_diff.dfy ===
/**
 * The line diff both revisions of the merge engine share: the
 * longest-common-subsequence table, the backtrack that turns it into one
 * operation per line, and the grouping of adjacent operations of one kind.
 */
module SequenceDiff {
  import opened EditDistance

  datatype Kind = Equal | Insert | Delete | Edit

  /** One line of a diff, tagged with its kind and the original line it belongs to (`FlatDiffLine`). */
  datatype FlatLine = FlatLine(kind: Kind, originalLine: nat, text: string)

  /** A line inside a grouped operation (`DiffLine`). */
  datatype DiffLine = DiffLine(originalLine: nat, text: string)

  /** A run of lines of one kind (`DiffOp`). */
  datatype DiffOp = DiffOp(kind: Kind, lines: seq<DiffLine>)

  /** Entry `dp[i][j]`: the length of a longest common subsequence of `o[i..]` and `v[j..]`. */
  function Lcs(o: seq<string>, v: seq<string>, i: nat, j: nat): nat
    requires i <= |o| && j <= |v|
    decreases |o| - i + |v| - j
  {
    if i < |o| && j < |v| && o[i] == v[j] then Lcs(o, v, i + 1, j + 1) + 1
    else Max(if i < |o| then Lcs(o, v, i + 1, j) else 0, if j < |v| then Lcs(o, v, i, j + 1) else 0)
  }

  /**
   * The backtrack from `(i, j)`: equal lines are taken together; otherwise an
   * insertion is preferred whenever it keeps the common subsequence as long.
   * An inserted line carries the index of the original line it precedes.
   */
  function Backtrack(o: seq<string>, v: seq<string>, i: nat, j: nat): seq<FlatLine>
    requires i <= |o| && j <= |v|
    decreases |o| - i + |v| - j
  {
    if i == |o| && j == |v| then []
    else if i < |o| && j < |v| && o[i] == v[j] then [FlatLine(Equal, i, o[i])] + Backtrack(o, v, i + 1, j + 1)
    else if j < |v| && (i == |o| || Lcs(o, v, i, j + 1) >= Lcs(o, v, i + 1, j)) then
      [FlatLine(Insert, i, v[j])] + Backtrack(o, v, i, j + 1)
    else [FlatLine(Delete, i, o[i])] + Backtrack(o, v, i + 1, j)
  }

  /** The lines the variant holds, in order: everything but deletions. */
  function NewTexts(f: seq<FlatLine>): seq<string> {
    if |f| == 0 then []
    else (if f[0].kind == Delete then [] else [f[0].text]) + NewTexts(f[1..])
  }

  /** The lines the original held, in order: equal and deleted lines. */
  function OldTexts(f: seq<FlatLine>): seq<string> {
    if |f| == 0 then []
    else (if f[0].kind == Equal || f[0].kind == Delete then [f[0].text] else []) + OldTexts(f[1..])
  }

  function EqualCount(f: seq<FlatLine>): nat {
    if |f| == 0 then 0 else (if f[0].kind == Equal then 1 else 0) + EqualCount(f[1..])
  }

  /** Original-line indices never decrease along the diff. */
  predicate Sorted(f: seq<FlatLine>) {
    forall p, q :: 0 <= p < q < |f| ==> f[p].originalLine <= f[q].originalLine
  }

  predicate AllFrom(f: seq<FlatLine>, lo: nat) {
    forall k :: 0 <= k < |f| ==> lo <= f[k].originalLine
  }

  /** A line's index lies within the original, and an equal or deleted line is that original line. */
  predicate AnchoredLine(o: seq<string>, x: FlatLine) {
    && x.originalLine <= |o|
    && ((x.kind == Equal || x.kind == Delete) ==> x.originalLine < |o| && x.text == o[x.originalLine])
  }

  predicate Anchored(o: seq<string>, f: seq<FlatLine>) {
    forall x :: x in f ==> AnchoredLine(o, x)
  }

  /** A line that survives into the variant contributes its text to it. */
  lemma {:induction false} NewTextsHas(f: seq<FlatLine>, x: FlatLine)
    requires x in f && x.kind != Delete
    ensures x.text in NewTexts(f)
  {
    if f[0] != x {
      NewTextsHas(f[1..], x);
    }
  }

  lemma NewTextsAppend(f: seq<FlatLine>, g: seq<FlatLine>)
    ensures NewTexts(f + g) == NewTexts(f) + NewTexts(g)
    ensures EqualCount(f + g) == EqualCount(f) + EqualCount(g)
    ensures OldTexts(f + g) == OldTexts(f) + OldTexts(g)
  {
    if |f| > 0 {
      assert (f + g)[1..] == f[1..] + g;
      NewTextsAppend(f[1..], g);
    } else {
      assert f + g == g;
    }
  }

  /** The backtrack keeps every line of both sides: its new lines are `v[j..]`, its old lines `o[i..]`. */
  lemma BacktrackTexts(o: seq<string>, v: seq<string>, i: nat, j: nat)
    requires i <= |o| && j <= |v|
    ensures NewTexts(Backtrack(o, v, i, j)) == v[j..]
    ensures OldTexts(Backtrack(o, v, i, j)) == o[i..]
  {
    BacktrackNew(o, v, i, j);
    BacktrackOld(o, v, i, j);
  }

  lemma {:induction false} BacktrackNew(o: seq<string>, v: seq<string>, i: nat, j: nat)
    requires i <= |o| && j <= |v|
    ensures NewTexts(Backtrack(o, v, i, j)) == v[j..]
    decreases |o| - i + |v| - j
  {
    if i == |o| && j == |v| {
    } else {
      BacktrackStep(o, v, i, j);
      var f := Backtrack(o, v, i, j);
      var x := f[0];
      var i', j' := if x.kind == Insert then i else i + 1, if x.kind == Delete then j else j + 1;
      var rest := Backtrack(o, v, i', j');
      assert f == [x] + rest;
      BacktrackNew(o, v, i', j');
      FlatCons(x, rest);
      if x.kind != Delete {
        SliceCons(v, j);
      }
    }
  }

  lemma {:induction false} BacktrackOld(o: seq<string>, v: seq<string>, i: nat, j: nat)
    requires i <= |o| && j <= |v|
    ensures OldTexts(Backtrack(o, v, i, j)) == o[i..]
    decreases |o| - i + |v| - j
  {
    if i == |o| && j == |v| {
    } else {
      BacktrackStep(o, v, i, j);
      var f := Backtrack(o, v, i, j);
      var x := f[0];
      var i', j' := if x.kind == Insert then i else i + 1, if x.kind == Delete then j else j + 1;
      var rest := Backtrack(o, v, i', j');
      assert f == [x] + rest;
      BacktrackOld(o, v, i', j');
      FlatCons(x, rest);
      if x.kind != Insert {
        SliceCons(o, i);
      }
    }
  }

  lemma SliceCons<T>(s: seq<T>, i: nat)
    requires i < |s|
    ensures s[i..] == [s[i]] + s[i + 1..]
  {
  }

  /** One step of the backtrack: which line it emits and where it continues. */
  lemma BacktrackStep(o: seq<string>, v: seq<string>, i: nat, j: nat)
    requires i <= |o| && j <= |v| && !(i == |o| && j == |v|)
    ensures var f := Backtrack(o, v, i, j);
      && |f| > 0
      && f[0].originalLine == i && f[0].kind != Edit
      && (f[0].kind != Insert ==> i < |o| && f[0].text == o[i])
      && (f[0].kind != Delete ==> j < |v| && f[0].text == v[j])
      && (f[0].kind == Equal <==> i < |o| && j < |v| && o[i] == v[j])
      && f[1..] == Backtrack(o, v, if f[0].kind == Insert then i else i + 1, if f[0].kind == Delete then j else j + 1)
  {
  }

  /** The backtrack walks a longest common subsequence: its equal lines number `dp[i][j]`. */
  lemma {:induction false} BacktrackLcs(o: seq<string>, v: seq<string>, i: nat, j: nat)
    requires i <= |o| && j <= |v|
    ensures EqualCount(Backtrack(o, v, i, j)) == Lcs(o, v, i, j)
    decreases |o| - i + |v| - j
  {
    if i == |o| && j == |v| {
    } else if i < |o| && j < |v| && o[i] == v[j] {
      BacktrackLcs(o, v, i + 1, j + 1);
      FlatCons(FlatLine(Equal, i, o[i]), Backtrack(o, v, i + 1, j + 1));
    } else if j < |v| && (i == |o| || Lcs(o, v, i, j + 1) >= Lcs(o, v, i + 1, j)) {
      BacktrackLcs(o, v, i, j + 1);
      FlatCons(FlatLine(Insert, i, v[j]), Backtrack(o, v, i, j + 1));
      assert Lcs(o, v, i, j) == Lcs(o, v, i, j + 1);
    } else {
      BacktrackLcs(o, v, i + 1, j);
      FlatCons(FlatLine(Delete, i, o[i]), Backtrack(o, v, i + 1, j));
      assert Lcs(o, v, i, j) == Lcs(o, v, i + 1, j);
    }
  }

  /** The one-step equations of the three per-line summaries. */
  lemma FlatCons(x: FlatLine, rest: seq<FlatLine>)
    ensures EqualCount([x] + rest) == (if x.kind == Equal then 1 else 0) + EqualCount(rest)
    ensures NewTexts([x] + rest) == (if x.kind == Delete then [] else [x.text]) + NewTexts(rest)
    ensures OldTexts([x] + rest) == (if x.kind == Equal || x.kind == Delete then [x.text] else []) + OldTexts(rest)
  {
    assert ([x] + rest)[1..] == rest;
  }

  /** The backtrack's indices start at `i`, never decrease and point into the original; it emits no edits. */
  lemma {:induction false} BacktrackOrder(o: seq<string>, v: seq<string>, i: nat, j: nat)
    requires i <= |o| && j <= |v|
    ensures var f := Backtrack(o, v, i, j);
      Sorted(f) && AllFrom(f, i) && Anchored(o, f) && forall x :: x in f ==> x.kind != Edit
    decreases |o| - i + |v| - j
  {
    if i == |o| && j == |v| {
    } else {
      BacktrackStep(o, v, i, j);
      var f := Backtrack(o, v, i, j);
      var x := f[0];
      var i', j' := if x.kind == Insert then i else i + 1, if x.kind == Delete then j else j + 1;
      var rest := Backtrack(o, v, i', j');
      assert f == [x] + rest;
      BacktrackOrder(o, v, i', j');
      assert AllFrom(rest, i);
      ConsOrdered(o, x, rest);
    }
  }

  lemma ConsOrdered(o: seq<string>, x: FlatLine, rest: seq<FlatLine>)
    requires AnchoredLine(o, x) && x.kind != Edit
    requires Sorted(rest) && AllFrom(rest, x.originalLine) && Anchored(o, rest)
    requires forall y :: y in rest ==> y.kind != Edit
    ensures var f := [x] + rest;
      Sorted(f) && AllFrom(f, x.originalLine) && Anchored(o, f) && forall y :: y in f ==> y.kind != Edit
  {
    var f := [x] + rest;
    assert forall k :: 1 <= k < |f| ==> f[k] == rest[k - 1];
  }

  /** A sequence diffed against itself is all equal lines. */
  lemma {:induction false} BacktrackSelf(o: seq<string>, i: nat)
    requires i <= |o|
    ensures forall x :: x in Backtrack(o, o, i, i) ==> x.kind == Equal
    decreases |o| - i
  {
    if i < |o| {
      BacktrackSelf(o, i + 1);
    }
  }

  /** The per-line form of one grouped operation (`flattenDiffOp`). */
  function FlattenOp(op: DiffOp): (f: seq<FlatLine>)
    ensures |f| == |op.lines|
    ensures forall k :: 0 <= k < |f| ==> f[k] == FlatLine(op.kind, op.lines[k].originalLine, op.lines[k].text)
  {
    seq(|op.lines|, k requires 0 <= k < |op.lines| => FlatLine(op.kind, op.lines[k].originalLine, op.lines[k].text))
  }

  /** The texts of a run's lines, in order. */
  function LineTexts(lines: seq<DiffLine>): seq<string> {
    if |lines| == 0 then [] else [lines[0].text] + LineTexts(lines[1..])
  }

  /** `ops.flatMap(flattenDiffOp)`. */
  function Flatten(ops: seq<DiffOp>): seq<FlatLine> {
    if |ops| == 0 then [] else FlattenOp(ops[0]) + Flatten(ops[1..])
  }

  lemma FlattenAppend(a: seq<DiffOp>, b: seq<DiffOp>)
    ensures Flatten(a + b) == Flatten(a) + Flatten(b)
  {
    if |a| > 0 {
      assert (a + b)[1..] == a[1..] + b;
      FlattenAppend(a[1..], b);
    } else {
      assert a + b == b;
    }
  }

  /** Every run is non-empty and neighbouring runs differ in kind. */
  predicate RunLength(ops: seq<DiffOp>) {
    && (forall k :: 0 <= k < |ops| ==> |ops[k].lines| > 0)
    && (forall k :: 0 <= k < |ops| - 1 ==> ops[k].kind != ops[k + 1].kind)
  }

  /** Adjacent single-line operations of the same kind merged into runs. */
  function Group(f: seq<FlatLine>): (r: seq<DiffOp>)
    ensures Flatten(r) == f
    ensures RunLength(r)
    ensures |f| > 0 ==> |r| > 0 && r[0].kind == f[0].kind
  {
    if |f| == 0 then []
    else
      var rest := Group(f[1..]);
      var line := DiffLine(f[0].originalLine, f[0].text);
      if |rest| > 0 && rest[0].kind == f[0].kind then
        var op := DiffOp(f[0].kind, [line] + rest[0].lines);
        assert FlattenOp(op) == [f[0]] + FlattenOp(rest[0]);
        assert rest == [rest[0]] + rest[1..];
        assert ([op] + rest[1..])[1..] == rest[1..];
        RunLengthTail(rest);
        RunLengthCons(op, rest[1..]);
        [op] + rest[1..]
      else
        var op := DiffOp(f[0].kind, [line]);
        assert FlattenOp(op) == [f[0]];
        assert ([op] + rest)[1..] == rest;
        RunLengthCons(op, rest);
        [op] + rest
  }

  lemma RunLengthCons(op: DiffOp, rest: seq<DiffOp>)
    requires |op.lines| > 0 && RunLength(rest) && (|rest| == 0 || rest[0].kind != op.kind)
    ensures RunLength([op] + rest)
  {
    var ops := [op] + rest;
    assert forall k :: 1 <= k < |ops| ==> ops[k] == rest[k - 1];
  }

  lemma RunLengthTail(ops: seq<DiffOp>)
    requires RunLength(ops) && |ops| > 0
    ensures RunLength(ops[1..])
    ensures |ops| > 1 ==> ops[1].kind != ops[0].kind
  {
    var tail := ops[1..];
    assert forall k :: 0 <= k < |tail| ==> tail[k] == ops[k + 1];
  }

  lemma FlattenCons(op: DiffOp, rest: seq<DiffOp>)
    ensures Flatten([op] + rest) == FlattenOp(op) + Flatten(rest)
  {
    assert ([op] + rest)[1..] == rest;
  }

  lemma FlattenOpCons(op: DiffOp)
    requires |op.lines| > 0
    ensures FlattenOp(op) == [FlatLine(op.kind, op.lines[0].originalLine, op.lines[0].text)] + FlattenOp(DiffOp(op.kind, op.lines[1..]))
  {
    var a, b := FlattenOp(op), FlattenOp(DiffOp(op.kind, op.lines[1..]));
    assert forall k :: 1 <= k < |a| ==> a[k] == b[k - 1];
  }

  /** The first line of every run shows up in the flattening. */
  lemma {:induction false} FlattenIn(ops: seq<DiffOp>, k: nat)
    requires k < |ops| && |ops[k].lines| > 0
    ensures FlattenOp(ops[k])[0] in Flatten(ops)
  {
    if k > 0 {
      FlattenIn(ops[1..], k - 1);
    }
  }

  /** Flattening a one-line run in front of `rest`. */
  lemma FlattenSingle(op: DiffOp, rest: seq<DiffOp>)
    requires |op.lines| == 1
    ensures Flatten([op] + rest) == [FlatLine(op.kind, op.lines[0].originalLine, op.lines[0].text)] + Flatten(rest)
  {
    FlattenCons(op, rest);
  }

  /** Flattening a longer run in front of `rest` peels off its first line. */
  lemma FlattenPeel(op: DiffOp, rest: seq<DiffOp>)
    requires |op.lines| > 1
    ensures Flatten([op] + rest) == [FlatLine(op.kind, op.lines[0].originalLine, op.lines[0].text)] + Flatten([DiffOp(op.kind, op.lines[1..])] + rest)
  {
    var op' := DiffOp(op.kind, op.lines[1..]);
    FlattenCons(op, rest);
    FlattenOpCons(op);
    FlattenCons(op', rest);
    var x, head, tail := FlattenOp(op)[0], FlattenOp(op'), Flatten(rest);
    assert [x] + head + tail == [x] + (head + tail);
  }

  /** Grouping a line in front of an already grouped tail. */
  lemma GroupCons(x: FlatLine, t: seq<FlatLine>)
    ensures var rest := Group(t);
      var line := DiffLine(x.originalLine, x.text);
      Group([x] + t) ==
        if |rest| > 0 && rest[0].kind == x.kind then [DiffOp(x.kind, [line] + rest[0].lines)] + rest[1..]
        else [DiffOp(x.kind, [line])] + rest
  {
    assert ([x] + t)[1..] == t;
  }

  /** Grouping is the only run-length encoding of a diff: any other with the same lines is equal to it. */
  lemma {:induction false} GroupUnique(ops: seq<DiffOp>)
    requires RunLength(ops)
    ensures Group(Flatten(ops)) == ops
    decreases |Flatten(ops)|
  {
    if |ops| > 0 {
      var op, rest := ops[0], ops[1..];
      assert ops == [op] + rest;
      RunLengthTail(ops);
      var x := FlatLine(op.kind, op.lines[0].originalLine, op.lines[0].text);
      var line := DiffLine(x.originalLine, x.text);
      assert line == op.lines[0];
      if |op.lines| == 1 {
        FlattenSingle(op, rest);
        var t := Flatten(rest);
        GroupUnique(rest);
        GroupCons(x, t);
        assert op == DiffOp(op.kind, [line]);
      } else {
        var op' := DiffOp(op.kind, op.lines[1..]);
        var ops' := [op'] + rest;
        FlattenPeel(op, rest);
        var t := Flatten(ops');
        RunLengthCons(op', rest);
        GroupUnique(ops');
        GroupCons(x, t);
        assert ops'[1..] == rest;
        assert op == DiffOp(op.kind, [line] + op'.lines);
      }
    }
  }

}

=== FILE: server_diff.dfy ===
/**
 * The line diff of the earlier revision (server/diff.ts): the same LCS
 * backtrack as the live one, grouped into runs of equal, inserted and deleted
 * lines, but with no line numbers and no folding of insert/delete pairs into
 * edits.
 */
module ServerDiff {
  import opened SequenceDiff

  /** A run of lines of one kind (the earlier `DiffOp`). */
  datatype Run = Run(kind: Kind, lines: seq<string>)

  /** The lines a variant holds: everything but deletions. */
  function RunNew(rs: seq<Run>): seq<string> {
    if |rs| == 0 then [] else (if rs[0].kind == Delete then [] else rs[0].lines) + RunNew(rs[1..])
  }

  /** The lines the original held: equal and deleted lines. */
  function RunOld(rs: seq<Run>): seq<string> {
    if |rs| == 0 then [] else (if rs[0].kind == Equal || rs[0].kind == Delete then rs[0].lines else []) + RunOld(rs[1..])
  }

  /** How many lines the runs keep unchanged. */
  function RunEqual(rs: seq<Run>): nat {
    if |rs| == 0 then 0 else (if rs[0].kind == Equal then |rs[0].lines| else 0) + RunEqual(rs[1..])
  }

  function Strip(ops: seq<DiffOp>): (r: seq<Run>)
    ensures |r| == |ops|
    ensures forall k :: 0 <= k < |r| ==> r[k] == Run(ops[k].kind, LineTexts(ops[k].lines))
  {
    if |ops| == 0 then [] else [Run(ops[0].kind, LineTexts(ops[0].lines))] + Strip(ops[1..])
  }

  lemma {:induction false} LineTextsLength(lines: seq<DiffLine>)
    ensures |LineTexts(lines)| == |lines|
  {
    if |lines| > 0 {
      LineTextsLength(lines[1..]);
    }
  }

  lemma {:induction false} FlattenOpTexts(op: DiffOp)
    ensures NewTexts(FlattenOp(op)) == (if op.kind == Delete then [] else LineTexts(op.lines))
    ensures OldTexts(FlattenOp(op)) == (if op.kind == Equal || op.kind == Delete then LineTexts(op.lines) else [])
    ensures EqualCount(FlattenOp(op)) == (if op.kind == Equal then |op.lines| else 0)
    decreases |op.lines|
  {
    if |op.lines| > 0 {
      var op' := DiffOp(op.kind, op.lines[1..]);
      FlattenOpTexts(op');
      assert FlattenOp(op)[1..] == FlattenOp(op');
    }
  }

  lemma {:induction false} StripTexts(ops: seq<DiffOp>)
    ensures RunNew(Strip(ops)) == NewTexts(Flatten(ops))
    ensures RunOld(Strip(ops)) == OldTexts(Flatten(ops))
    ensures RunEqual(Strip(ops)) == EqualCount(Flatten(ops))
  {
    if |ops| > 0 {
      FlattenOpTexts(ops[0]);
      LineTextsLength(ops[0].lines);
      StripTexts(ops[1..]);
      assert Strip(ops)[1..] == Strip(ops[1..]);
      NewTextsAppend(FlattenOp(ops[0]), Flatten(ops[1..]));
    }
  }

  /** Runs of a run-length encoding whose lines all have one kind: at most one run, of that kind. */
  lemma SingleKind(ops: seq<DiffOp>, kd: Kind)
    requires RunLength(ops)
    requires forall x :: x in Flatten(ops) ==> x.kind == kd
    ensures |ops| <= 1
    ensures |ops| == 1 ==> ops[0].kind == kd
  {
    if |ops| > 0 {
      FlattenIn(ops, 0);
      if |ops| > 1 {
        FlattenIn(ops, 1);
      }
    }
  }

  /**
   * `diff` of the earlier revision: what the variant holds and what the
   * original held are both recovered from the runs, the unchanged lines are a
   * longest common subsequence, runs are non-empty, and no two neighbours
   * share a kind.
   */
  function Diff(o: seq<string>, v: seq<string>): (r: seq<Run>)
    ensures RunNew(r) == v && RunOld(r) == o
    ensures RunEqual(r) == Lcs(o, v, 0, 0)
    ensures forall k :: 0 <= k < |r| ==> |r[k].lines| > 0 && r[k].kind != Edit
    ensures forall k :: 0 <= k < |r| - 1 ==> r[k].kind != r[k + 1].kind
  {
    var f := Backtrack(o, v, 0, 0);
    BacktrackTexts(o, v, 0, 0);
    BacktrackLcs(o, v, 0, 0);
    BacktrackOrder(o, v, 0, 0);
    var ops := Group(f);
    StripTexts(ops);
    forall k | 0 <= k < |ops| ensures |LineTexts(ops[k].lines)| > 0 && ops[k].kind != Edit {
      LineTextsLength(ops[k].lines);
      FlattenIn(ops, k);
    }
    Strip(ops)
  }

  /** A sequence diffed against itself is a single equal run (or nothing). */
  lemma DiffSelf(o: seq<string>)
    ensures Diff(o, o) == (if |o| == 0 then [] else [Run(Equal, o)])
  {
    BacktrackSelf(o, 0);
    var ops := Group(Backtrack(o, o, 0, 0));
    SingleKind(ops, Equal);
    var r := Diff(o, o);
    if |r| == 1 {
      assert RunNew(r) == r[0].lines;
    }
  }

  /** Everything is inserted when diffing against nothing. */
  lemma DiffFromEmpty(v: seq<string>)
    ensures Diff([], v) == (if |v| == 0 then [] else [Run(Insert, v)])
  {
    BacktrackInserts(v, 0);
    var ops := Group(Backtrack([], v, 0, 0));
    SingleKind(ops, Insert);
    var r := Diff([], v);
    if |r| == 1 {
      assert RunNew(r) == r[0].lines;
    }
  }

  lemma {:induction false} BacktrackInserts(v: seq<string>, j: nat)
    requires j <= |v|
    ensures forall x :: x in Backtrack([], v, 0, j) ==> x.kind == Insert
    decreases |v| - j
  {
    if j < |v| {
      BacktrackInserts(v, j + 1);
    }
  }
}

=== FILE: server_merge.dfy ===
/**
 * The three-way merge of the earlier revision (server/diff.ts). The driver
 * walks the two run lists side by side with one cursor each; both sides
 * inserting at the same point are paired line by line; a similar pair goes
 * to a conflict handler that re-splits and merges again. That handler's
 * recursion has no evident bound, so it is modelled with explicit fuel.
 */
module ServerMerge {
  import opened Text
  import opened Splitters
  import opened EditDistance
  import opened SequenceDiff
  import opened ServerDiff
  import opened SharedMerge

  /** A result, or the fuel bound on conflict nesting ran out first. */
  datatype Outcome<T> = Done(value: T) | OutOfFuel

  /** Every line the proposal inserts anywhere (`propInsertSet`). */
  function ProposedInserts(rs: seq<Run>): (s: set<string>)
    ensures forall x :: x in s <==> exists k :: 0 <= k < |rs| && rs[k].kind == Insert && x in rs[k].lines
  {
    if |rs| == 0 then {}
    else
      var rest := ProposedInserts(rs[1..]);
      assert forall k :: 1 <= k < |rs| ==> rs[k] == rs[1..][k - 1];
      (if rs[0].kind == Insert then set x | x in rs[0].lines else {}) + rest
  }

  /** The cursor's run has kind `kd`; an exhausted cursor (`finished`) has no kind of these. */
  predicate IsKind(rs: seq<Run>, kd: Kind) {
    |rs| > 0 && rs[0].kind == kd
  }

  /** The lines not already inserted by the proposal, in order. */
  function Fresh(lines: seq<string>, ins: set<string>): (r: seq<string>)
    ensures forall x :: x in r <==> x in lines && x !in ins
    ensures forall x {:trigger multiset(r)[x]} :: multiset(r)[x] == if x in ins then 0 else multiset(lines)[x]
    ensures SubsequenceOf(r, lines)
  {
    Filter(lines, x => x !in ins)
  }

  /** Advancing a cursor; past the end it stays exhausted. */
  function Advance(rs: seq<Run>): seq<Run> {
    if |rs| > 0 then rs[1..] else rs
  }

  function Prepend(lines: seq<string>, r: Outcome<Merged>): (r': Outcome<Merged>)
    ensures r'.Done? <==> r.Done?
    ensures r.Done? ==> r'.value.discarded == r.value.discarded
  {
    if r.Done? then Done(Merged(lines + r.value.lines, r.value.discarded)) else OutOfFuel
  }

  function Then(a: Outcome<Merged>, b: Outcome<Merged>): (r: Outcome<Merged>)
    ensures r.Done? <==> a.Done? && b.Done?
  {
    if a.Done? && b.Done? then Done(Both(a.value, b.value)) else OutOfFuel
  }

  /** `autoThreeWayMerge` of the earlier revision. It never reports a discarded fragment. */
  function Merge(d: Depth, o: seq<string>, c: seq<string>, p: seq<string>, fuel: nat): (r: Outcome<Merged>)
    ensures r.Done? ==> r.value.discarded == []
    decreases fuel, 3, 0
  {
    var prop := Diff(o, p);
    Walk(d, ProposedInserts(prop), Diff(o, c), prop, fuel)
  }

  /** One turn of the driver loop per call; `cur` and `prop` are what is left under each cursor. */
  function Walk(d: Depth, ins: set<string>, cur: seq<Run>, prop: seq<Run>, fuel: nat): (r: Outcome<Merged>)
    ensures r.Done? ==> r.value.discarded == []
    decreases fuel, 2, |cur| + |prop|
  {
    if |cur| == 0 && |prop| == 0 then Done(Merged([], []))
    else if IsKind(cur, Equal) && IsKind(prop, Equal) then
      var a, b := cur[0].lines, prop[0].lines;
      var n := if |a| <= |b| then |a| else |b|;
      var cur' := if n == |a| then cur[1..] else [Run(Equal, a[n..])] + cur[1..];
      var prop' := if n == |b| then prop[1..] else [Run(Equal, b[n..])] + prop[1..];
      Prepend(a[..n], Walk(d, ins, cur', prop', fuel))
    else if !IsKind(cur, Insert) && IsKind(prop, Insert) then
      Prepend(prop[0].lines, Walk(d, ins, cur, prop[1..], fuel))
    else if IsKind(cur, Insert) && !IsKind(prop, Insert) then
      Prepend(Fresh(cur[0].lines, ins), Walk(d, ins, cur[1..], prop, fuel))
    else if IsKind(cur, Insert) && IsKind(prop, Insert) then
      Then(Pair(d, ins, cur[0].lines, prop[0].lines, fuel), Walk(d, ins, cur[1..], prop[1..], fuel))
    else if IsKind(cur, Delete) && IsKind(prop, Delete) then
      Walk(d, ins, cur[1..], prop[1..], fuel)
    else if IsKind(cur, Delete) then
      Walk(d, ins, cur[1..], if IsKind(prop, Equal) then prop[1..] else prop, fuel)
    else if IsKind(prop, Delete) then
      Walk(d, ins, if IsKind(cur, Equal) then cur[1..] else cur, prop[1..], fuel)
    else
      Walk(d, ins, Advance(cur), Advance(prop), fuel)
  }

  /** Both sides insert at one point: their lines are taken pairwise, index by index. */
  function Pair(d: Depth, ins: set<string>, cs: seq<string>, ps: seq<string>, fuel: nat): (r: Outcome<Merged>)
    ensures r.Done? ==> r.value.discarded == []
    decreases fuel, 1, |cs| + |ps|
  {
    if |cs| == 0 && |ps| == 0 then Done(Merged([], []))
    else if |cs| > 0 && |ps| > 0 then
      var head :=
        if cs[0] == ps[0] then Done(Merged([cs[0]], []))
        else if SimilarEnough(cs[0], ps[0]) then
          var h := Conflict(d, cs[0], ps[0], fuel);
          if h.Done? then Done(Merged([h.value.text], h.value.discarded)) else OutOfFuel
        else Done(Merged([cs[0], ps[0]], []));
      Then(head, Pair(d, ins, cs[1..], ps[1..], fuel))
    else if |cs| > 0 then
      Prepend(if cs[0] in ins then [] else [cs[0]], Pair(d, ins, cs[1..], ps, fuel))
    else
      Prepend([ps[0]], Pair(d, ins, cs, ps[1..], fuel))
  }

  /**
   * `conflictHandler` of the earlier revision, as written: the proposal is
   * used as the separator for splitting the current text, and only blank
   * discards survive the final filter.
   */
  function Conflict(d: Depth, c: string, p: string, fuel: nat): (r: Outcome<Resolved>)
    ensures r.Done? ==> r.value.discarded == []
    decreases fuel, 0, 0
  {
    if fuel == 0 then OutOfFuel
    else
      var f := Finer(d);
      Settle(f, p, Merge(f, [], CurrentPieces(f, c), SplitOn(c, p), fuel - 1))
  }

  /**
   * The tail of `conflictHandler`: the inner merge's lines joined with
   * spaces, and its discards (the proposal itself at sentence depth)
   * filtered down to the blank ones.
   */
  function Settle(f: Depth, p: string, m: Outcome<Merged>): (r: Outcome<Resolved>)
    requires m.Done? ==> m.value.discarded == []
    ensures r.Done? <==> m.Done?
    ensures r.Done? ==> r.value.discarded == [] && r.value.text == Join(m.value.lines, " ")
  {
    if m.OutOfFuel? then OutOfFuel
    else
      var ds := if f == Sentence && |m.value.discarded| > 0 then [p] else m.value.discarded;
      Done(Resolved(Join(m.value.lines, " "), Filter(ds, s => IsBlank(s))))
  }

  /** `autoThreeWayTextMerge` of the earlier revision. */
  function TextMerge(o: string, c: string, p: string, fuel: nat): (r: Outcome<Resolved>)
    ensures r.Done? ==> r.value.discarded == []
  {
    var m := Merge(File, SplitOn(o, "\n"), SplitOn(c, "\n"), SplitOn(p, "\n"), fuel);
    if m.Done? then Done(Resolved(Join(m.value.lines, "\n"), m.value.discarded)) else OutOfFuel
  }

  // ---------------------------------------------------------------------------
  // Agreement: identical sides come back unchanged, whatever the fuel.
  // ---------------------------------------------------------------------------

  lemma {:induction false} PairSame(d: Depth, ins: set<string>, cs: seq<string>, fuel: nat)
    ensures Pair(d, ins, cs, cs, fuel) == Done(Merged(cs, []))
    decreases |cs|
  {
    if |cs| > 0 {
      PairSame(d, ins, cs[1..], fuel);
      assert [cs[0]] + cs[1..] == cs;
    }
  }

  /** Walking a run list against itself keeps exactly the lines the variant holds. */
  lemma {:induction false} WalkSame(d: Depth, ins: set<string>, rs: seq<Run>, fuel: nat)
    requires forall k :: 0 <= k < |rs| ==> rs[k].kind != Edit
    ensures Walk(d, ins, rs, rs, fuel) == Done(Merged(RunNew(rs), []))
    decreases |rs|
  {
    if |rs| > 0 {
      WalkSame(d, ins, rs[1..], fuel);
      var a := rs[0].lines;
      if rs[0].kind == Insert {
        PairSame(d, ins, a, fuel);
      } else if rs[0].kind == Equal {
        assert a[..|a|] == a;
        assert Walk(d, ins, rs, rs, fuel) == Prepend(a, Walk(d, ins, rs[1..], rs[1..], fuel));
      } else {
        assert rs[0].kind == Delete;
        assert Walk(d, ins, rs, rs, fuel) == Walk(d, ins, rs[1..], rs[1..], fuel);
        assert RunNew(rs) == RunNew(rs[1..]);
        assert Walk(d, ins, rs[1..], rs[1..], fuel) == Done(Merged(RunNew(rs[1..]), []));
      }
    }
  }

  /** When current and proposed agree, the merge returns them and discards nothing. */
  lemma MergeAgrees(d: Depth, o: seq<string>, c: seq<string>, fuel: nat)
    ensures Merge(d, o, c, c, fuel) == Done(Merged(c, []))
  {
    WalkSame(d, ProposedInserts(Diff(o, c)), Diff(o, c), fuel);
  }

  lemma TextMergeAgrees(o: string, c: string, fuel: nat)
    ensures TextMerge(o, c, c, fuel) == Done(Resolved(c, []))
  {
    MergeAgrees(File, SplitOn(o, "\n"), SplitOn(c, "\n"), fuel);
  }

  // ---------------------------------------------------------------------------
  // Two behaviours of the code as written (see "Findings" in the README).
  // ---------------------------------------------------------------------------

  /** The pieces `conflictHandler` splits the current text into at granularity `f`. */
  function CurrentPieces(f: Depth, c: string): seq<string> {
    if f == Paragraph then RegexSplit(c, SentenceMatches(c, 0), 0, true)
    else RegexSplit(c, SpaceMatches(c, 0), 0, false)
  }

  /**
   * Whenever splitting the current text on the proposal yields the same
   * pieces as splitting it on the granularity's pattern, the conflict comes
   * back as the current pieces joined with spaces and no discard: the
   * proposal has no influence at all.
   */
  lemma ConflictIgnoresProposal(d: Depth, c: string, p: string, fuel: nat)
    requires fuel >= 1
    requires SplitOn(c, p) == CurrentPieces(Finer(d), c)
    ensures Conflict(d, c, p, fuel) == Done(Resolved(Join(CurrentPieces(Finer(d), c), " "), []))
  {
    var f, cs := Finer(d), CurrentPieces(Finer(d), c);
    MergeAgrees(f, [], cs, fuel - 1);
    SettleClean(f, p, cs);
  }

  /** An inner merge that finishes with no discard settles on its lines joined with spaces. */
  lemma SettleClean(f: Depth, p: string, cs: seq<string>)
    ensures Settle(f, p, Done(Merged(cs, []))) == Done(Resolved(Join(cs, " "), []))
  {
  }

  /** A conflict between "x" and "y" at file depth resolves to "x", and "y" leaves no trace. */
  lemma ConflictDropsProposal(fuel: nat)
    requires fuel >= 1
    ensures Conflict(File, "x", "y", fuel) == Done(Resolved("x", []))
  {
    SplitsOfX();
    ConflictIgnoresProposal(File, "x", "y", fuel);
    assert Join(["x"], " ") == "x";
  }

  lemma SplitsOfX()
    ensures CurrentPieces(Paragraph, "x") == ["x"]
    ensures SplitOn("x", "y") == ["x"]
  {
    assert SentenceMatches("x", 1) == [];
    assert !IsTerminator('x');
    assert SentenceMatches("x", 0) == [];
    assert RegexSplit("x", [], 0, true) == ["x"];
    assert !OccursAt("x", "y", 0);
    assert IndexOf("x", "y", 0) == -1;
  }

  /**
   * The proposal deletes the first of two lines and current keeps both. The
   * deletion run pops current's whole equal run, so the proposal's surviving
   * "b" then faces an exhausted cursor and is dropped: nothing is left.
   */
  lemma DeletionDropsUnchanged(fuel: nat)
    ensures Merge(File, ["a", "b"], ["a", "b"], ["b"], fuel) == Done(Merged([], []))
  {
    DiffSelf(["a", "b"]);
    DeletionDiff();
    DeletionInserts();
    DeletionWalk(fuel);
  }

  lemma DeletionInserts()
    ensures ProposedInserts([Run(Delete, ["a"]), Run(Equal, ["b"])]) == {}
  {
  }

  /** Current's equal run is popped by the proposed deletion; the proposal's "b" then meets an exhausted cursor. */
  lemma DeletionWalk(fuel: nat)
    ensures Walk(File, {}, [Run(Equal, ["a", "b"])], [Run(Delete, ["a"]), Run(Equal, ["b"])], fuel) == Done(Merged([], []))
  {
    var prop := [Run(Delete, ["a"]), Run(Equal, ["b"])];
    var tail := [Run(Equal, ["b"])];
    assert prop[1..] == tail;
    DeletionWalkTail(fuel);
  }

  lemma DeletionWalkTail(fuel: nat)
    ensures Walk(File, {}, [], [Run(Equal, ["b"])], fuel) == Done(Merged([], []))
  {
    assert Advance([Run(Equal, ["b"])]) == [];
  }

  lemma DeletionDiff()
    ensures Diff(["a", "b"], ["b"]) == [Run(Delete, ["a"]), Run(Equal, ["b"])]
  {
    var o, v := ["a", "b"], ["b"];
    var f := [FlatLine(Delete, 0, "a"), FlatLine(Equal, 1, "b")];
    assert Backtrack(o, v, 1, 0) == f[1..];
    assert Lcs(o, v, 0, 1) == 0;
    assert Lcs(o, v, 1, 0) == 1;
    assert Backtrack(o, v, 0, 0) == f;
    var ops := [DiffOp(Delete, [DiffLine(0, "a")]), DiffOp(Equal, [DiffLine(1, "b")])];
    assert Group(f[1..]) == ops[1..];
    assert Group(f) == ops;
    assert LineTexts([DiffLine(0, "a")]) == ["a"];
    assert LineTexts([DiffLine(1, "b")]) == ["b"];
    assert Strip(ops) == [Run(Delete, ["a"]), Run(Equal, ["b"])];
  }

  // ---------------------------------------------------------------------------
  // The rules of one loop turn and of the pairwise insert loop.
  // ---------------------------------------------------------------------------

  /**
   * Equal heads emit as many of current's lines as the shorter run holds and
   * leave the rest of the longer run at its cursor; a proposed insertion
   * facing anything but a current insertion is emitted whole; a current
   * insertion facing anything but a proposed one is emitted without the lines
   * the proposal inserts elsewhere; two insertions are paired line by line;
   * two deletions emit nothing; a one-sided deletion emits nothing and moves
   * the other cursor only past an equal run. Each rule then carries on with
   * the rest of the walk.
   */
  lemma WalkRules(d: Depth, ins: set<string>, cur: seq<Run>, prop: seq<Run>, fuel: nat)
    ensures IsKind(cur, Equal) && IsKind(prop, Equal) && |cur[0].lines| <= |prop[0].lines| ==>
      var a, b := cur[0].lines, prop[0].lines;
      Walk(d, ins, cur, prop, fuel) ==
           Prepend(a, Walk(d, ins, cur[1..], if |a| == |b| then prop[1..] else [Run(Equal, b[|a|..])] + prop[1..], fuel))
    ensures IsKind(cur, Equal) && IsKind(prop, Equal) && |prop[0].lines| < |cur[0].lines| ==>
      var a, b := cur[0].lines, prop[0].lines;
      Walk(d, ins, cur, prop, fuel) == Prepend(a[..|b|], Walk(d, ins, [Run(Equal, a[|b|..])] + cur[1..], prop[1..], fuel))
    ensures !IsKind(cur, Insert) && IsKind(prop, Insert) ==>
      Walk(d, ins, cur, prop, fuel) == Prepend(prop[0].lines, Walk(d, ins, cur, prop[1..], fuel))
    ensures IsKind(cur, Insert) && !IsKind(prop, Insert) ==>
      Walk(d, ins, cur, prop, fuel) == Prepend(Fresh(cur[0].lines, ins), Walk(d, ins, cur[1..], prop, fuel))
    ensures IsKind(cur, Insert) && IsKind(prop, Insert) ==>
      Walk(d, ins, cur, prop, fuel) == Then(Pair(d, ins, cur[0].lines, prop[0].lines, fuel), Walk(d, ins, cur[1..], prop[1..], fuel))
    ensures IsKind(cur, Delete) && IsKind(prop, Delete) ==>
      Walk(d, ins, cur, prop, fuel) == Walk(d, ins, cur[1..], prop[1..], fuel)
    ensures IsKind(cur, Delete) && !IsKind(prop, Delete) && !IsKind(prop, Insert) ==>
      Walk(d, ins, cur, prop, fuel) == Walk(d, ins, cur[1..], if IsKind(prop, Equal) then prop[1..] else prop, fuel)
    ensures IsKind(prop, Delete) && !IsKind(cur, Delete) && !IsKind(cur, Insert) ==>
      Walk(d, ins, cur, prop, fuel) == Walk(d, ins, if IsKind(cur, Equal) then cur[1..] else cur, prop[1..], fuel)
  {
    if IsKind(cur, Equal) && IsKind(prop, Equal) {
      var a, b := cur[0].lines, prop[0].lines;
      if |a| <= |b| {
        assert a[..|a|] == a;
        if |a| == |b| {
          assert b[|a|..] == [];
        }
      }
    }
  }

  /**
   * Pairing concurrent insertions: an identical pair is emitted once, a
   * dissimilar pair is emitted current first, a similar pair is resolved by
   * the conflict handler; once the proposal's lines run
   * out, the current's remaining lines are emitted unless the proposal
   * inserts them elsewhere, and once the current's run out, the proposal's
   * remaining lines are all emitted.
   */
  lemma PairRules(d: Depth, ins: set<string>, cs: seq<string>, ps: seq<string>, fuel: nat)
    ensures |cs| > 0 && |ps| > 0 && cs[0] == ps[0] ==>
      Pair(d, ins, cs, ps, fuel) == Prepend([cs[0]], Pair(d, ins, cs[1..], ps[1..], fuel))
    ensures |cs| > 0 && |ps| > 0 && !SimilarEnough(cs[0], ps[0]) ==>
      Pair(d, ins, cs, ps, fuel) == Prepend([cs[0], ps[0]], Pair(d, ins, cs[1..], ps[1..], fuel))
    ensures |cs| > 0 && |ps| > 0 && cs[0] != ps[0] && SimilarEnough(cs[0], ps[0]) ==>
      var h := Conflict(d, cs[0], ps[0], fuel);
      Pair(d, ins, cs, ps, fuel) == if h.Done? then Prepend([h.value.text], Pair(d, ins, cs[1..], ps[1..], fuel)) else OutOfFuel
    ensures |ps| == 0 ==> Pair(d, ins, cs, ps, fuel) == Done(Merged(Fresh(cs, ins), []))
    ensures |cs| == 0 ==> Pair(d, ins, cs, ps, fuel) == Done(Merged(ps, []))
  {
    if |ps| == 0 {
      LeftoverCurrent(d, ins, cs, fuel);
    }
    if |cs| == 0 {
      LeftoverProposed(d, ins, ps, fuel);
    }
  }

  lemma {:induction false} LeftoverCurrent(d: Depth, ins: set<string>, cs: seq<string>, fuel: nat)
    ensures Pair(d, ins, cs, [], fuel) == Done(Merged(Fresh(cs, ins), []))
    decreases |cs|
  {
    if |cs| > 0 {
      LeftoverCurrent(d, ins, cs[1..], fuel);
      FreshCons(cs, ins);
    }
  }

  lemma FreshCons(cs: seq<string>, ins: set<string>)
    requires |cs| > 0
    ensures Fresh(cs, ins) == (if cs[0] in ins then [] else [cs[0]]) + Fresh(cs[1..], ins)
  {
  }

  lemma {:induction false} LeftoverProposed(d: Depth, ins: set<string>, ps: seq<string>, fuel: nat)
    ensures Pair(d, ins, [], ps, fuel) == Done(Merged(ps, []))
    decreases |ps|
  {
    if |ps| > 0 {
      LeftoverProposed(d, ins, ps[1..], fuel);
      assert [ps[0]] + ps[1..] == ps;
    }
  }
}

=== FILE: settings.dfy ===
/**
 * The client settings normaliser (src/settings.ts). The stored record is
 * whatever JSON was saved, so the lists and records that older versions
 * lacked are optional; `CleanSettings` fills them in, drops servers of an
 * unknown pipeline type and re-creates a server an AI function points at.
 * The module-level `_config` is passed in and returned instead of mutated.
 */
module Settings {
  import opened Options
  import opened Text

  /** `ILlmServer`; a missing `type` in the stored JSON is `None`. */
  datatype Server = Server(id: string, serverType: Option<string>, url: Option<string>, alias: Option<string>)

  /** `IAIFunction`. */
  datatype AiFunction = AiFunction(serverKey: Option<string>, model: Option<string>, systemPrompt: Option<string>)

  /** `IService`: a pipeline the client knows how to talk to. */
  datatype Service = Service(name: string, key: Option<string>, description: Option<string>)

  /** `ISettings` as stored; the three optional parts may be absent in an old record. */
  datatype Config = Config(
    v: int,
    transcriptType: Option<string>,
    transcriptUrl: Option<string>,
    llmServers: Option<seq<Server>>,
    summaryAi: Option<AiFunction>,
    cleanAudioAi: Option<AiFunction>,
    backendOverride: Option<string>)

  const NoAi := AiFunction(None, None, None)

  /** `Config.llmPipelines`. */
  const LlmPipelines: seq<Service> := [Service("Ollama", Some("Ollama"), Some("Ollama server. You may need to consider CORS to enable access"))]

  /** Some pipeline's key equals the server's type (`llmPipelines.find(p => p.key === s.type)`). */
  predicate KnownType(t: Option<string>) {
    exists k :: 0 <= k < |LlmPipelines| && LlmPipelines[k].key == t
  }

  /** `loopConfigedAiFunctions`: the summary function, listed twice. */
  function LoopConfiguredAiFunctions(c: Config): (fs: seq<AiFunction>)
    ensures |fs| == 2 && fs[0] == fs[1] == c.summaryAi.GetOr(NoAi)
  {
    [c.summaryAi.GetOr(NoAi), c.summaryAi.GetOr(NoAi)]
  }

  /** Looping over the configured AI functions links the summary function's key once. */
  lemma LoopLinksOnce(xs: seq<Server>, c: Config)
    ensures LinkAll(xs, LoopConfiguredAiFunctions(c)) == Link(xs, c.summaryAi.GetOr(NoAi))
  {
    LinkTwice(xs, c.summaryAi.GetOr(NoAi));
  }

  /** The servers of a known pipeline type, in their stored order. */
  function KnownServers(xs: seq<Server>): (r: seq<Server>)
    ensures forall x :: x in r <==> x in xs && KnownType(x.serverType)
    ensures SubsequenceOf(r, xs)
    ensures (forall x :: x in xs ==> KnownType(x.serverType)) ==> r == xs
  {
    if |xs| == 0 then []
    else
      var rest := KnownServers(xs[1..]);
      if KnownType(xs[0].serverType) then
        assert ([xs[0]] + rest)[1..] == rest;
        [xs[0]] + rest
      else
        rest
  }

  /** The server `CleanSettings` force-creates for a dangling key. */
  function ForcedServer(key: string): Server {
    Server(key, Some(LlmPipelines[0].key.GetOr("")), None, Some("???"))
  }

  predicate HasId(xs: seq<Server>, key: string) {
    exists k :: 0 <= k < |xs| && xs[k].id == key
  }

  /** The function names a server by a non-empty key that no server in `xs` has. */
  predicate Dangling(xs: seq<Server>, f: AiFunction) {
    f.serverKey.Some? && f.serverKey.value != "" && !HasId(xs, f.serverKey.value)
  }

  /** One turn of the force-create loop: a non-empty key with no server of that id gets one. */
  function Link(xs: seq<Server>, f: AiFunction): (r: seq<Server>)
    ensures f.serverKey.Some? && f.serverKey.value != "" ==> HasId(r, f.serverKey.value)
    ensures r == xs || r == xs + [ForcedServer(f.serverKey.GetOr(""))]
    ensures HasId(xs, f.serverKey.GetOr("")) ==> r == xs
  {
    if Dangling(xs, f) then
      var r := xs + [ForcedServer(f.serverKey.value)];
      assert r[|xs|].id == f.serverKey.value;
      r
    else xs
  }

  function LinkAll(xs: seq<Server>, fs: seq<AiFunction>): seq<Server>
    decreases |fs|
  {
    if |fs| == 0 then xs else LinkAll(Link(xs, fs[0]), fs[1..])
  }

  /** A second turn for the same function finds the server the first one made or found. */
  lemma LinkTwice(xs: seq<Server>, f: AiFunction)
    ensures LinkAll(xs, [f, f]) == Link(xs, f)
  {
    var once := Link(xs, f);
    assert Link(once, f) == once;
    assert [f, f][1..] == [f];
    assert LinkAll(xs, [f, f]) == LinkAll(once, [f]);
    assert LinkAll(once, [f]) == LinkAll(once, []);
  }

  /**
   * The server list `CleanSettings` leaves: servers of an unknown type are
   * dropped (the rest keep their order), then the loop over the AI functions
   * (the summary function, twice) appends at most one server so the key
   * names an existing server.
   */
  function CleanServers(xs: seq<Server>, f: AiFunction): (r: seq<Server>)
    ensures forall x :: x in r ==> KnownType(x.serverType)
    ensures r == KnownServers(xs) || r == KnownServers(xs) + [ForcedServer(f.serverKey.GetOr(""))]
    ensures f.serverKey.Some? && f.serverKey.value != "" ==> HasId(r, f.serverKey.value)
    ensures Dangling(KnownServers(xs), f) ==> r == KnownServers(xs) + [ForcedServer(f.serverKey.value)]
    ensures !Dangling(KnownServers(xs), f) ==> r == KnownServers(xs)
  {
    var kept := KnownServers(xs);
    LinkTwice(kept, f);
    assert KnownType(LlmPipelines[0].key);
    LinkAll(kept, [f, f])
  }

  /** Cleaning a cleaned server list changes nothing. */
  lemma CleanServersIdempotent(xs: seq<Server>, f: AiFunction)
    ensures CleanServers(CleanServers(xs, f), f) == CleanServers(xs, f)
  {
    var r := CleanServers(xs, f);
    assert KnownServers(r) == r;
    assert Link(r, f) == r;
    assert [f, f][1..] == [f];
    assert LinkAll(r, [f, f]) == LinkAll(r, [f]) == LinkAll(r, []);
  }

  /**
   * `CleanSettings`: absent AI functions become empty ones, an absent server
   * list counts as empty, and the server list keeps the servers of a known
   * type plus, when the summary function's key names none of them, one
   * forced server for that key. The audio-cleaning function's key is not
   * looked at.
   */
  function CleanSettings(c: Config): (r: Config)
    ensures r.llmServers.Some? && r.summaryAi.Some? && r.cleanAudioAi.Some?
    ensures forall x :: x in r.llmServers.value ==> KnownType(x.serverType)
    ensures var kept, f := KnownServers(c.llmServers.GetOr([])), c.summaryAi.GetOr(NoAi);
      && (Dangling(kept, f) ==> r.llmServers.value == kept + [ForcedServer(f.serverKey.value)])
      && (!Dangling(kept, f) ==> r.llmServers.value == kept)
    ensures var f := c.summaryAi.GetOr(NoAi);
      f.serverKey.Some? && f.serverKey.value != "" ==> HasId(r.llmServers.value, f.serverKey.value)
    ensures r.summaryAi == Some(c.summaryAi.GetOr(NoAi)) && r.cleanAudioAi == Some(c.cleanAudioAi.GetOr(NoAi))
    ensures r.v == c.v && r.transcriptType == c.transcriptType && r.transcriptUrl == c.transcriptUrl
    ensures r.backendOverride == c.backendOverride
  {
    var c' := c.(llmServers := Some(c.llmServers.GetOr([])),
                 summaryAi := Some(c.summaryAi.GetOr(NoAi)),
                 cleanAudioAi := Some(c.cleanAudioAi.GetOr(NoAi)));
    var fs := LoopConfiguredAiFunctions(c');
    c'.(llmServers := Some(CleanServers(c'.llmServers.value, fs[0])))
  }

  /** `ResetSettings`: version 1, no servers, empty AI functions, and nothing else set. */
  function ResetSettings(): (r: Config)
    ensures r.v == 1 && r.llmServers == Some([])
    ensures r.transcriptType == None && r.transcriptUrl == None && r.backendOverride == None
    ensures r.summaryAi == Some(NoAi) && r.cleanAudioAi == Some(NoAi)
    ensures CleanSettings(r) == r
  {
    var r := Config(1, None, None, Some([]), Some(NoAi), Some(NoAi), None);
    assert CleanServers([], NoAi) == [];
    r
  }

  /** Cleaning a cleaned record changes nothing. */
  lemma CleanIdempotent(c: Config)
    ensures CleanSettings(CleanSettings(c)) == CleanSettings(c)
  {
    var r := CleanSettings(c);
    CleanServersIdempotent(c.llmServers.GetOr([]), c.summaryAi.GetOr(NoAi));
  }

  /** The servers after cleaning do not depend on the audio-cleaning function at all. */
  lemma CleanIgnoresAudioKey(c: Config, a: Option<AiFunction>)
    ensures CleanSettings(c.(cleanAudioAi := a)).llmServers == CleanSettings(c).llmServers
  {
  }
}

=== FILE: shared_diff.dfy ===
/**
 * `diff` of the live revision (shared/diff.ts): the shared LCS backtrack and
 * grouping, followed by the pass that turns an insertion run directly
 * followed by a deletion run into a single `edit` run. The edit keeps only
 * the inserted lines; the deleted ones disappear from the diff.
 */
module SharedDiff {
  import opened SequenceDiff

  /** The edit pass over grouped runs, scanning left to right and skipping the absorbed deletion. */
  function CollapseEdits(ops: seq<DiffOp>): (r: seq<DiffOp>)
    ensures |ops| > 0 ==> |r| > 0 && (r[0].kind == ops[0].kind || (r[0].kind == Edit && ops[0].kind == Insert))
    ensures (forall k :: 0 <= k < |ops| ==> |ops[k].lines| > 0) ==> forall k :: 0 <= k < |r| ==> |r[k].lines| > 0
  {
    if |ops| == 0 then []
    else if |ops| >= 2 && ops[0].kind == Insert && ops[1].kind == Delete then
      [DiffOp(Edit, ops[0].lines)] + CollapseEdits(ops[2..])
    else [ops[0]] + CollapseEdits(ops[1..])
  }

  /** Every insertion run directly followed by a deletion run becomes an edit run with the inserted lines. */
  lemma {:induction false} CollapseEditsFolds(ops: seq<DiffOp>)
    ensures forall k :: 0 <= k < |ops| - 1 && ops[k].kind == Insert && ops[k + 1].kind == Delete ==>
      DiffOp(Edit, ops[k].lines) in CollapseEdits(ops)
    decreases |ops|
  {
    if |ops| >= 2 && ops[0].kind == Insert && ops[1].kind == Delete {
      CollapseEditsFolds(ops[2..]);
      assert forall k :: 2 <= k < |ops| ==> ops[k] == ops[2..][k - 2];
    } else if |ops| > 0 {
      CollapseEditsFolds(ops[1..]);
      assert forall k :: 1 <= k < |ops| ==> ops[k] == ops[1..][k - 1];
    }
  }

  /** On grouped runs without edits, the deletion run an edit absorbs does not survive after it. */
  lemma {:induction false} CollapseEditsAbsorbs(ops: seq<DiffOp>)
    requires RunLength(ops) && NoEdits(ops)
    ensures EditsAbsorbDeletes(CollapseEdits(ops))
    decreases |ops|
  {
    if |ops| >= 2 && ops[0].kind == Insert && ops[1].kind == Delete {
      RunLengthTail(ops);
      RunLengthTail(ops[1..]);
      assert ops[1..][1..] == ops[2..];
      CollapseEditsAbsorbs(ops[2..]);
      var rest := CollapseEdits(ops[2..]);
      assert CollapseEdits(ops) == [DiffOp(Edit, ops[0].lines)] + rest;
      assert |ops| > 2 ==> ops[2].kind != Delete;
    } else if |ops| > 0 {
      RunLengthTail(ops);
      CollapseEditsAbsorbs(ops[1..]);
      var rest := CollapseEdits(ops[1..]);
      assert CollapseEdits(ops) == [ops[0]] + rest;
    }
  }

  /** Run `k` is a deletion run directly after an insertion run: the one an edit absorbs. */
  predicate Absorbed(ops: seq<DiffOp>, k: nat)
    requires k < |ops|
  {
    k > 0 && ops[k - 1].kind == Insert && ops[k].kind == Delete
  }

  /** Run `k` as it appears after folding: an edit when a deletion run follows the insertion run. */
  function Label(ops: seq<DiffOp>, k: nat): DiffOp
    requires k < |ops|
  {
    if ops[k].kind == Insert && k + 1 < |ops| && ops[k + 1].kind == Delete then DiffOp(Edit, ops[k].lines) else ops[k]
  }

  /** The runs from index `k` on that are not absorbed, each with its label, in order. */
  function Survivors(ops: seq<DiffOp>, k: nat): seq<DiffOp>
    requires k <= |ops|
    decreases |ops| - k
  {
    if k == |ops| then []
    else (if Absorbed(ops, k) then [] else [Label(ops, k)]) + Survivors(ops, k + 1)
  }

  /**
   * Folding keeps every run except a deletion run directly after an
   * insertion run, in order, and relabels an insertion run as an edit
   * exactly when a deletion run follows it.
   */
  lemma CollapseEditsSurvivors(ops: seq<DiffOp>)
    ensures CollapseEdits(ops) == Survivors(ops, 0)
  {
    CollapseSurvivorsFrom(ops, 0);
    assert ops[0..] == ops;
  }

  lemma {:induction false} CollapseSurvivorsFrom(ops: seq<DiffOp>, k: nat)
    requires k <= |ops| && (k == |ops| || !Absorbed(ops, k))
    ensures CollapseEdits(ops[k..]) == Survivors(ops, k)
    decreases |ops| - k
  {
    if k < |ops| {
      var t := ops[k..];
      if |t| >= 2 && t[0].kind == Insert && t[1].kind == Delete {
        assert t[2..] == ops[k + 2..];
        CollapseSurvivorsFrom(ops, k + 2);
        assert Absorbed(ops, k + 1);
        assert Survivors(ops, k + 1) == Survivors(ops, k + 2);
      } else {
        assert t[1..] == ops[k + 1..];
        CollapseSurvivorsFrom(ops, k + 1);
        assert Label(ops, k) == ops[k];
      }
    }
  }

  /** No run is an edit: what grouping the backtrack produces. */
  predicate NoEdits(ops: seq<DiffOp>) {
    forall k :: 0 <= k < |ops| ==> ops[k].kind != Edit
  }

  /** No edit run is directly followed by a deletion run: the deletion an edit replaces is gone. */
  predicate EditsAbsorbDeletes(ops: seq<DiffOp>) {
    forall k :: 0 <= k < |ops| - 1 ==> !(ops[k].kind == Edit && ops[k + 1].kind == Delete)
  }

  /** No insertion run is directly followed by a deletion run. */
  predicate NoInsertBeforeDelete(ops: seq<DiffOp>) {
    forall k :: 0 <= k < |ops| - 1 ==> !(ops[k].kind == Insert && ops[k + 1].kind == Delete)
  }

  lemma {:induction false} FlattenOpCounts(op: DiffOp)
    ensures NewTexts(FlattenOp(op)) == (if op.kind == Delete then [] else LineTexts(op.lines))
    ensures EqualCount(FlattenOp(op)) == (if op.kind == Equal then |op.lines| else 0)
    decreases |op.lines|
  {
    if |op.lines| > 0 {
      var op' := DiffOp(op.kind, op.lines[1..]);
      FlattenOpCounts(op');
      assert FlattenOp(op)[1..] == FlattenOp(op');
    }
  }

  /** One step of the collapse, seen on the flattened lines. */
  lemma CollapseFlatten(ops: seq<DiffOp>)
    requires |ops| > 0
    ensures |ops| >= 2 && ops[0].kind == Insert && ops[1].kind == Delete ==>
      && Flatten(CollapseEdits(ops)) == FlattenOp(DiffOp(Edit, ops[0].lines)) + Flatten(CollapseEdits(ops[2..]))
      && Flatten(ops) == FlattenOp(ops[0]) + (FlattenOp(ops[1]) + Flatten(ops[2..]))
    ensures !(|ops| >= 2 && ops[0].kind == Insert && ops[1].kind == Delete) ==>
      && Flatten(CollapseEdits(ops)) == FlattenOp(ops[0]) + Flatten(CollapseEdits(ops[1..]))
      && Flatten(ops) == FlattenOp(ops[0]) + Flatten(ops[1..])
  {
    if |ops| >= 2 && ops[0].kind == Insert && ops[1].kind == Delete {
      assert CollapseEdits(ops)[1..] == CollapseEdits(ops[2..]);
      assert ops[1..][1..] == ops[2..];
    } else {
      assert CollapseEdits(ops)[1..] == CollapseEdits(ops[1..]);
    }
  }

  /** The counting step of an edit: `e` stands for the insert run `a` and hides the delete run `b`. */
  lemma CountsJoin(e: seq<FlatLine>, done: seq<FlatLine>, a: seq<FlatLine>, b: seq<FlatLine>, rest: seq<FlatLine>)
    requires NewTexts(e) == NewTexts(a) && NewTexts(b) == []
    requires EqualCount(e) == 0 && EqualCount(a) == 0 && EqualCount(b) == 0
    requires NewTexts(done) == NewTexts(rest) && EqualCount(done) == EqualCount(rest)
    ensures NewTexts(e + done) == NewTexts(a + (b + rest))
    ensures EqualCount(e + done) == EqualCount(a + (b + rest))
  {
    var br := b + rest;
    NewTextsAppend(e, done);
    NewTextsAppend(b, rest);
    NewTextsAppend(a, br);
    assert NewTexts(br) == NewTexts(rest);
    assert EqualCount(br) == EqualCount(rest);
    assert NewTexts(e + done) == NewTexts(a) + NewTexts(rest);
  }

  lemma {:induction false} CollapseEditsCounts(ops: seq<DiffOp>)
    ensures NewTexts(Flatten(CollapseEdits(ops))) == NewTexts(Flatten(ops))
    ensures EqualCount(Flatten(CollapseEdits(ops))) == EqualCount(Flatten(ops))
    decreases |ops|
  {
    if |ops| >= 2 && ops[0].kind == Insert && ops[1].kind == Delete {
      var e := DiffOp(Edit, ops[0].lines);
      CollapseEditsCounts(ops[2..]);
      CollapseFlatten(ops);
      FlattenOpCounts(ops[0]);
      FlattenOpCounts(ops[1]);
      FlattenOpCounts(e);
      CountsJoin(FlattenOp(e), Flatten(CollapseEdits(ops[2..])), FlattenOp(ops[0]), FlattenOp(ops[1]), Flatten(ops[2..]));
    } else if |ops| > 0 {
      CollapseEditsCounts(ops[1..]);
      CollapseFlatten(ops);
      NewTextsAppend(FlattenOp(ops[0]), Flatten(CollapseEdits(ops[1..])));
      NewTextsAppend(FlattenOp(ops[0]), Flatten(ops[1..]));
    }
  }

  /** Every line of the collapsed diff is a line of the input, or an inserted line relabelled as an edit. */
  lemma {:induction false} CollapseEditsLines(ops: seq<DiffOp>)
    ensures LinesFrom(Flatten(CollapseEdits(ops)), Flatten(ops))
    decreases |ops|
  {
    if |ops| >= 2 && ops[0].kind == Insert && ops[1].kind == Delete {
      var e := DiffOp(Edit, ops[0].lines);
      CollapseEditsLines(ops[2..]);
      assert CollapseEdits(ops)[1..] == CollapseEdits(ops[2..]);
      assert Flatten(ops) == FlattenOp(ops[0]) + (FlattenOp(ops[1]) + Flatten(ops[2..])) by {
        assert ops[1..][1..] == ops[2..];
      }
      forall y | y in FlattenOp(e)
        ensures FlatLine(Insert, y.originalLine, y.text) in FlattenOp(ops[0])
      {
        var k :| 0 <= k < |FlattenOp(e)| && FlattenOp(e)[k] == y;
        assert FlattenOp(ops[0])[k] == FlatLine(Insert, y.originalLine, y.text);
      }
    } else if |ops| > 0 {
      CollapseEditsLines(ops[1..]);
      assert CollapseEdits(ops)[1..] == CollapseEdits(ops[1..]);
    }
  }

  /** Every index in `a` is at most every index in `b`. */
  predicate Before(a: seq<FlatLine>, b: seq<FlatLine>) {
    forall x, y :: x in a && y in b ==> x.originalLine <= y.originalLine
  }

  lemma SortedCross(a: seq<FlatLine>, b: seq<FlatLine>)
    requires Sorted(a + b)
    ensures Sorted(a) && Sorted(b) && Before(a, b)
  {
    assert forall p :: 0 <= p < |a| ==> (a + b)[p] == a[p];
    assert forall q :: 0 <= q < |b| ==> (a + b)[|a| + q] == b[q];
  }

  lemma SortedJoin(a: seq<FlatLine>, b: seq<FlatLine>)
    requires Sorted(a) && Sorted(b) && Before(a, b)
    ensures Sorted(a + b)
  {
    var f := a + b;
    forall p, q | 0 <= p < q < |f|
      ensures f[p].originalLine <= f[q].originalLine
    {
      if q < |a| {
        assert f[p] == a[p] && f[q] == a[q];
      } else if p >= |a| {
        assert f[p] == b[p - |a|] && f[q] == b[q - |a|];
      } else {
        assert f[p] == a[p] && f[q] == b[q - |a|];
      }
    }
  }

  /** The lines of `out` are those of `inp`, some inserted ones relabelled as edits. */
  predicate LinesFrom(out: seq<FlatLine>, inp: seq<FlatLine>) {
    forall y :: y in out ==> y in inp || (y.kind == Edit && FlatLine(Insert, y.originalLine, y.text) in inp)
  }

  lemma BeforeLinesFrom(x: seq<FlatLine>, h: seq<FlatLine>, out: seq<FlatLine>, inp: seq<FlatLine>)
    requires Before(h, inp) && LinesFrom(out, inp)
    requires forall a :: a in x ==> exists b :: b in h && b.originalLine == a.originalLine
    ensures Before(x, out)
  {
    forall a, y | a in x && y in out
      ensures a.originalLine <= y.originalLine
    {
      var b :| b in h && b.originalLine == a.originalLine;
      if y !in inp {
        assert FlatLine(Insert, y.originalLine, y.text) in inp;
      }
    }
  }

  /** Relabelling a run as an edit keeps its indices, so it stays sorted and each line keeps its place. */
  lemma EditRunLines(op: DiffOp)
    requires Sorted(FlattenOp(op))
    ensures var fe := FlattenOp(DiffOp(Edit, op.lines));
      && Sorted(fe)
      && forall a :: a in fe ==> exists b :: b in FlattenOp(op) && b.originalLine == a.originalLine
  {
    var fa, fe := FlattenOp(op), FlattenOp(DiffOp(Edit, op.lines));
    assert forall k :: 0 <= k < |fe| ==> fe[k].originalLine == fa[k].originalLine;
    forall a | a in fe
      ensures exists b :: b in fa && b.originalLine == a.originalLine
    {
      var k :| 0 <= k < |fe| && fe[k] == a;
      assert fa[k] in fa;
    }
  }

  /** Collapsing keeps the original-line indices in order. */
  lemma {:induction false} CollapseEditsSorted(ops: seq<DiffOp>)
    requires Sorted(Flatten(ops))
    ensures Sorted(Flatten(CollapseEdits(ops)))
    decreases |ops|
  {
    if |ops| > 0 {
      CollapseFlatten(ops);
    }
    if |ops| >= 2 && ops[0].kind == Insert && ops[1].kind == Delete {
      var a, b, t := FlattenOp(ops[0]), FlattenOp(ops[1]), Flatten(ops[2..]);
      var fe, r := FlattenOp(DiffOp(Edit, ops[0].lines)), Flatten(CollapseEdits(ops[2..]));
      var bt := b + t;
      SortedCross(a, bt);
      SortedCross(b, t);
      assert Before(a, t);
      CollapseEditsSorted(ops[2..]);
      CollapseEditsLines(ops[2..]);
      EditRunLines(ops[0]);
      BeforeLinesFrom(fe, a, r, t);
      SortedJoin(fe, r);
    } else if |ops| > 0 {
      var h, t := FlattenOp(ops[0]), Flatten(ops[1..]);
      var r := Flatten(CollapseEdits(ops[1..]));
      SortedCross(h, t);
      CollapseEditsSorted(ops[1..]);
      CollapseEditsLines(ops[1..]);
      BeforeLinesFrom(h, h, r, t);
      SortedJoin(h, r);
    }
  }

  /** No insertion run is left directly in front of a deletion run. */
  lemma {:induction false} CollapseEditsSeparates(ops: seq<DiffOp>)
    ensures NoInsertBeforeDelete(CollapseEdits(ops))
    decreases |ops|
  {
    var r := CollapseEdits(ops);
    if |ops| >= 2 && ops[0].kind == Insert && ops[1].kind == Delete {
      CollapseEditsSeparates(ops[2..]);
      assert r[1..] == CollapseEdits(ops[2..]);
    } else if |ops| > 0 {
      CollapseEditsSeparates(ops[1..]);
      assert r[1..] == CollapseEdits(ops[1..]);
    }
  }

  /**
   * `diff(original, variant)`. Its non-deleted lines spell `variant`, its
   * equal lines are a longest common subsequence, its indices are in order
   * and point into `original`, and no insertion run precedes a deletion run.
   */
  function Diff(o: seq<string>, v: seq<string>): (r: seq<DiffOp>)
    ensures NewTexts(Flatten(r)) == v
    ensures EqualCount(Flatten(r)) == Lcs(o, v, 0, 0)
    ensures Sorted(Flatten(r)) && Anchored(o, Flatten(r))
    ensures NoInsertBeforeDelete(r)
    ensures forall k :: 0 <= k < |r| ==> |r[k].lines| > 0
    ensures EditsAbsorbDeletes(r)
  {
    var f := Backtrack(o, v, 0, 0);
    BacktrackTexts(o, v, 0, 0);
    BacktrackLcs(o, v, 0, 0);
    BacktrackOrder(o, v, 0, 0);
    var ops := Group(f);
    CollapseEditsCounts(ops);
    CollapseEditsSorted(ops);
    CollapseEditsLines(ops);
    CollapseEditsSeparates(ops);
    forall k | 0 <= k < |ops| ensures ops[k].kind != Edit {
      FlattenIn(ops, k);
    }
    CollapseEditsAbsorbs(ops);
    CollapseEdits(ops)
  }

  /**
   * The runs of `diff` are the grouped runs of the backtrack, minus each
   * deletion run directly after an insertion run, with that insertion run
   * relabelled as an edit: no other run is lost or changed.
   */
  lemma DiffRuns(o: seq<string>, v: seq<string>)
    ensures Diff(o, v) == Survivors(Group(Backtrack(o, v, 0, 0)), 0)
  {
    CollapseEditsSurvivors(Group(Backtrack(o, v, 0, 0)));
  }

  /** A sequence diffed against itself has nothing but equal lines. */
  lemma DiffSelf(o: seq<string>)
    ensures forall x :: x in Flatten(Diff(o, o)) ==> x.kind == Equal
  {
    BacktrackSelf(o, 0);
    var ops := Group(Backtrack(o, o, 0, 0));
    CollapseEditsLines(ops);
  }
}

=== FILE: shared_merge.dfy ===
/**
 * The three-way merge of the live revision (shared/diff.ts): the row-by-row
 * driver `autoThreeWayMerge`, the conflict ladder `conflictHandler` that
 * re-merges a conflicting row at a finer granularity (file, then sentences
 * of a paragraph, then white-space separated words), and the entry point
 * `autoThreeWayTextMerge` over newline-separated text.
 */
module SharedMerge {
  import opened Options
  import opened Text
  import opened Splitters
  import opened EditDistance
  import opened SequenceDiff
  import opened SharedDiff
  import opened Alignment

  /** The granularity ladder (`eSplitDepth`). */
  datatype Depth = File | Paragraph | Sentence

  /** How many finer levels remain below a granularity. */
  function Rank(d: Depth): nat {
    match d
    case File => 2
    case Paragraph => 1
    case Sentence => 0
  }

  /** The next finer granularity: paragraphs below a file, sentences below anything else. */
  function Finer(d: Depth): (f: Depth)
    ensures d != Sentence ==> Rank(f) == Rank(d) - 1
    ensures f != File
  {
    if d == File then Paragraph else Sentence
  }

  /** The matches of the pattern that cuts a text at granularity `d`. */
  function Delimiters(d: Depth, s: string): (ms: seq<Match>)
    requires d != File
    ensures Ordered(ms, 0, |s|)
  {
    if d == Paragraph then SentenceMatches(s, 0) else SpaceMatches(s, 0)
  }

  /** The units of a text at granularity `d`, each keeping its trailing delimiter. */
  function SplitAt(d: Depth, s: string): (pieces: seq<string>)
    requires d != File
    ensures Join(pieces, "") == s
  {
    var ms := Delimiters(d, s);
    SplitWithTrailLossless(s, ms);
    SplitWithTrail(s, ms)
  }

  /**
   * Each unit ends at the end of a delimiter match and starts where the
   * previous one ended; the text after the last delimiter is one more unit
   * when it is not empty.
   */
  lemma SplitAtGaps(d: Depth, s: string)
    requires d != File
    ensures var ms, units := Delimiters(d, s), SplitAt(d, s);
      && |units| == |ms| + (if GapStart(ms, 0, |ms|) < |s| then 1 else 0)
      && (forall k :: 0 <= k < |ms| ==>
            GapStart(ms, 0, k) <= ms[k].end <= |s| && units[k] == s[GapStart(ms, 0, k)..ms[k].end])
      && (GapStart(ms, 0, |ms|) < |s| ==> units[|ms|] == s[GapStart(ms, 0, |ms|)..])
  {
    TrailPiecesGaps(s, Delimiters(d, s), 0);
  }

  /** The merged units and the fragments given up on. */
  datatype Merged = Merged(lines: seq<string>, discarded: seq<string>)

  /** A merged text and the fragments given up on. */
  datatype Resolved = Resolved(text: string, discarded: seq<string>)

  /** What one side did to a row (`getDiffChange`): the text it leaves there, and whether it changed anything. */
  datatype Change = Change(target: Option<string>, isDelta: bool)

  function GetDiffChange(side: Option<FlatLine>): Change {
    match side
    case None => Change(None, false)
    case Some(x) =>
      match x.kind
      case Delete => Change(None, true)
      case Equal => Change(Some(x.text), false)
      case Insert => Change(Some(x.text), true)
      case Edit => Change(Some(x.text), true)
  }

  function Both(a: Merged, b: Merged): Merged {
    Merged(a.lines + b.lines, a.discarded + b.discarded)
  }

  /** `autoThreeWayMerge`: diff both sides against the original, align, and merge row by row. */
  function Merge(d: Depth, o: seq<string>, c: seq<string>, p: seq<string>): Merged
    decreases Rank(d), 3, 0
  {
    MergeRows(d, AlignDiffs(o, Diff(o, c), Diff(o, p)), p)
  }

  function MergeRows(d: Depth, rows: seq<MergeLine>, p: seq<string>): Merged
    decreases Rank(d), 2, |rows|
  {
    if |rows| == 0 then Merged([], [])
    else Both(MergeRow(d, rows[0], p), MergeRows(d, rows[1..], p))
  }

  /** The decision for one row; `p` is the whole proposed sequence, searched for a current-only change. */
  function MergeRow(d: Depth, row: MergeLine, p: seq<string>): Merged
    decreases Rank(d), 1, 0
  {
    var Change(t1, d1) := GetDiffChange(row.current);
    var Change(t2, d2) := GetDiffChange(row.proposed);
    if !d1 && !d2 && t1 == t2 then
      Merged(if t1.Some? then [t1.value] else [], [])
    else if t1.Some? && t2.Some? then
      if d1 && d2 then
        if SimilarEnough(t1.value, t2.value) then
          var r := Conflict(d, row.original.GetOr(""), t1.value, t2.value);
          Merged([r.text], r.discarded)
        else
          Merged([t1.value, t2.value], [])
      else if d1 then Merged([t1.value], [])
      else if d2 then Merged([t2.value], [])
      else Merged([], [])
    else if t2.Some? then
      if !d1 then Merged([t2.value], [])
      else if row.original.Some? && row.original.value != "" then Merged([row.original.value], [t2.value])
      else Merged([], [])
    else if t1.Some? then
      if t1.value !in p && d1 then Merged([t1.value], []) else Merged([], [])
    else Merged([], [])
  }

  /**
   * `conflictHandler`. At sentence granularity current wins and a differing
   * proposal is given up whole. Above it, the three texts are split one level
   * finer and merged again; discards come back trimmed and never blank, and
   * a non-empty discard list from the sentence level is replaced by the
   * whole proposal.
   */
  function Conflict(d: Depth, o: string, c: string, p: string): (r: Resolved)
    ensures d == Sentence && c == p ==> r.text == p && r.discarded == []
    ensures d == Sentence && c != p ==> r.text == c && r.discarded == [p]
    ensures d != Sentence ==> forall s :: s in r.discarded ==> s != "" && Trimmed(s)
    ensures d == Paragraph ==> r.discarded == [] || r.discarded == [Trim(p)]
    ensures d == Paragraph && !IsBlank(p) && |Merge(Sentence, SplitAt(Sentence, o), SplitAt(Sentence, c), SplitAt(Sentence, p)).discarded| > 0 ==>
      r.discarded == [Trim(p)]
    ensures d == Paragraph && |Merge(Sentence, SplitAt(Sentence, o), SplitAt(Sentence, c), SplitAt(Sentence, p)).discarded| == 0 ==>
      r.discarded == []
    ensures d == File ==> forall s :: s in Merge(Paragraph, SplitAt(Paragraph, o), SplitAt(Paragraph, c), SplitAt(Paragraph, p)).discarded && !IsBlank(s) ==>
      Trim(s) in r.discarded
    ensures d == File ==> forall s :: s in r.discarded ==>
      exists x :: x in Merge(Paragraph, SplitAt(Paragraph, o), SplitAt(Paragraph, c), SplitAt(Paragraph, p)).discarded && s == Trim(x)
    ensures d == File ==> r.discarded == Cleaned(Merge(Paragraph, SplitAt(Paragraph, o), SplitAt(Paragraph, c), SplitAt(Paragraph, p)).discarded)
    decreases Rank(d), 0, 0
  {
    if d == Sentence then
      if c == p then Resolved(p, []) else Resolved(c, [p])
    else
      var f := Finer(d);
      var m := Merge(f, SplitAt(f, o), SplitAt(f, c), SplitAt(f, p));
      var ds := if f == Sentence && |m.discarded| > 0 then [p] else m.discarded;
      Resolved(Join(m.lines, ""), Cleaned(ds))
  }

  /** Blank fragments are dropped and the rest trimmed. */
  function Cleaned(ds: seq<string>): (r: seq<string>)
    ensures forall s :: s in r ==> s != "" && Trimmed(s)
    ensures |ds| == 1 ==> r == [] || r == [Trim(ds[0])]
    ensures |ds| == 0 ==> r == []
    ensures |ds| == 1 && !IsBlank(ds[0]) ==> r == [Trim(ds[0])]
    ensures forall s :: s in ds && !IsBlank(s) ==> Trim(s) in r
    ensures forall s :: s in r ==> exists x :: x in ds && !IsBlank(x) && s == Trim(x)
  {
    var kept := Filter(ds, NonBlank);
    CleanedParts(ds, kept);
    TrimAll(kept)
  }

  /** Cleaning a concatenation cleans each part: order and repeats are kept. */
  lemma CleanedAppend(a: seq<string>, b: seq<string>)
    ensures Cleaned(a + b) == Cleaned(a) + Cleaned(b)
  {
    FilterAppend(a, b, NonBlank);
    TrimAllAppend(Filter(a, NonBlank), Filter(b, NonBlank));
  }

  /** What trimming the non-blank fragments `kept` of `ds` gives. */
  lemma CleanedParts(ds: seq<string>, kept: seq<string>)
    requires |kept| <= |ds|
    requires forall x :: x in kept <==> x in ds && !IsBlank(x)
    ensures forall s :: s in TrimAll(kept) ==> s != "" && Trimmed(s)
    ensures |ds| == 1 ==> TrimAll(kept) == [] || TrimAll(kept) == [Trim(ds[0])]
    ensures |ds| == 1 && !IsBlank(ds[0]) ==> TrimAll(kept) == [Trim(ds[0])]
    ensures forall s :: s in ds && !IsBlank(s) ==> Trim(s) in TrimAll(kept)
    ensures forall s :: s in TrimAll(kept) ==> exists x :: x in ds && !IsBlank(x) && s == Trim(x)
  {
    TrimAllShape(kept);
    if |ds| == 1 {
      CleanedSingle(ds, kept);
    }
    TrimAllKeeps(ds, kept);
    TrimAllSources(ds, kept);
  }

  lemma TrimAllShape(kept: seq<string>)
    requires forall x :: x in kept ==> !IsBlank(x)
    ensures forall s :: s in TrimAll(kept) ==> s != "" && Trimmed(s)
  {
    var r := TrimAll(kept);
    forall k | 0 <= k < |r| ensures r[k] != "" && Trimmed(r[k]) {
      assert kept[k] in kept;
    }
  }

  lemma CleanedSingle(ds: seq<string>, kept: seq<string>)
    requires |ds| == 1 && |kept| <= 1
    requires forall x :: x in kept <==> x in ds && !IsBlank(x)
    ensures TrimAll(kept) == [] || TrimAll(kept) == [Trim(ds[0])]
    ensures !IsBlank(ds[0]) ==> TrimAll(kept) == [Trim(ds[0])]
  {
    var r := TrimAll(kept);
    if |kept| == 0 {
      assert ds[0] !in kept;
      assert r == [];
    } else {
      assert kept[0] in kept;
      assert kept[0] == ds[0];
      assert r == [Trim(ds[0])];
    }
  }

  lemma TrimAllKeeps(ds: seq<string>, kept: seq<string>)
    requires forall x :: x in ds && !IsBlank(x) ==> x in kept
    ensures forall s :: s in ds && !IsBlank(s) ==> Trim(s) in TrimAll(kept)
  {
    var r := TrimAll(kept);
    forall s | s in ds && !IsBlank(s) ensures Trim(s) in r {
      var k :| 0 <= k < |kept| && kept[k] == s;
      assert r[k] == Trim(s);
    }
  }

  lemma TrimAllSources(ds: seq<string>, kept: seq<string>)
    requires forall x :: x in kept ==> x in ds && !IsBlank(x)
    ensures forall s :: s in TrimAll(kept) ==> exists x :: x in ds && !IsBlank(x) && s == Trim(x)
  {
    var r := TrimAll(kept);
    forall s | s in r ensures exists x :: x in ds && !IsBlank(x) && s == Trim(x) {
      var k :| 0 <= k < |r| && r[k] == s;
      assert kept[k] in kept && s == Trim(kept[k]);
    }
  }

  /** `autoThreeWayTextMerge`: lines are split on and rejoined with newlines. */
  function TextMerge(o: string, c: string, p: string): Resolved {
    var m := Merge(File, SplitOn(o, "\n"), SplitOn(c, "\n"), SplitOn(p, "\n"));
    Resolved(Join(m.lines, "\n"), m.discarded)
  }

  /** The side changed its line to some text: an insertion or an edit. */
  predicate Rewrites(side: Option<FlatLine>) {
    side.Some? && (side.value.kind == Insert || side.value.kind == Edit)
  }

  /** The side keeps its line as an equal line. */
  predicate Keeps(side: Option<FlatLine>) {
    side.Some? && side.value.kind == Equal
  }

  /** The side deletes its line. */
  predicate Deletes(side: Option<FlatLine>) {
    side.Some? && side.value.kind == Delete
  }

  /**
   * The decision table of a row:
   * both sides kept the same line, so it is emitted;
   * both rewrote to dissimilar texts, so both are kept, current first;
   * both rewrote to similar texts, so the row is escalated to the conflict
   * handler at the same depth, whose text is emitted and whose discards are
   * passed on;
   * current deleted a line the proposal kept or rewrote, so the original line
   * is restored and the proposal's text discarded (nothing at all for an
   * empty original);
   * current rewrote alone, so its text survives only if no proposed line,
   * anywhere in the proposal, has the same text; one side rewrote while the other kept its line,
   * so the rewrite wins;
   * the proposal deleted a line current kept or deleted too, so nothing is
   * emitted.
   */
  lemma RowRules(d: Depth, row: MergeLine, p: seq<string>)
    ensures Keeps(row.current) && Keeps(row.proposed) && row.current.value.text == row.proposed.value.text ==>
      MergeRow(d, row, p) == Merged([row.current.value.text], [])
    ensures Rewrites(row.current) && Rewrites(row.proposed)
            && !SimilarEnough(row.current.value.text, row.proposed.value.text) ==>
      MergeRow(d, row, p) == Merged([row.current.value.text, row.proposed.value.text], [])
    ensures Rewrites(row.current) && Rewrites(row.proposed)
            && SimilarEnough(row.current.value.text, row.proposed.value.text) ==>
      var r := Conflict(d, row.original.GetOr(""), row.current.value.text, row.proposed.value.text);
      MergeRow(d, row, p) == Merged([r.text], r.discarded)
    ensures Deletes(row.current) && row.proposed.Some? && !Deletes(row.proposed) ==>
      MergeRow(d, row, p) ==
        if row.original.Some? && row.original.value != "" then Merged([row.original.value], [row.proposed.value.text])
        else Merged([], [])
    ensures Rewrites(row.current) && Keeps(row.proposed) ==>
      MergeRow(d, row, p) == Merged([row.current.value.text], [])
    ensures Rewrites(row.current) && (row.proposed.None? || Deletes(row.proposed)) ==>
      MergeRow(d, row, p) == if row.current.value.text in p then Merged([], []) else Merged([row.current.value.text], [])
    ensures !Rewrites(row.current) && !Deletes(row.current) && Rewrites(row.proposed) ==>
      MergeRow(d, row, p) == Merged([row.proposed.value.text], [])
    ensures Deletes(row.proposed) && (Keeps(row.current) || Deletes(row.current)) ==>
      MergeRow(d, row, p) == Merged([], [])
  {
  }

  // ---------------------------------------------------------------------------
  // Agreement: when both sides hold the same text, that text is the result.
  // ---------------------------------------------------------------------------

  /** When current and proposed agree, the merge returns them unchanged and discards nothing. */
  lemma {:induction false} MergeAgrees(d: Depth, o: seq<string>, c: seq<string>)
    ensures Merge(d, o, c, c) == Merged(c, [])
    decreases Rank(d), 3, 0
  {
    var f := Flatten(Diff(o, c));
    AlignSelf(o, f);
    RowsAgree(d, o, f, c);
  }

  lemma {:induction false} RowsAgree(d: Depth, o: seq<string>, f: seq<FlatLine>, p: seq<string>)
    ensures MergeRows(d, Pairs(o, f), p) == Merged(NewTexts(f), [])
    decreases Rank(d), 2, |f|
  {
    if |f| > 0 {
      RowAgrees(d, At(o, f[0].originalLine), f[0], p);
      RowsAgree(d, o, f[1..], p);
      assert Pairs(o, f)[1..] == Pairs(o, f[1..]);
    }
  }

  lemma {:induction false} RowAgrees(d: Depth, a: Option<string>, x: FlatLine, p: seq<string>)
    ensures MergeRow(d, MergeLine(a, Some(x), Some(x)), p) == Merged(if x.kind == Delete then [] else [x.text], [])
    decreases Rank(d), 1, 0
  {
    var row := MergeLine(a, Some(x), Some(x));
    match x.kind {
      case Equal =>
        assert GetDiffChange(Some(x)) == Change(Some(x.text), false);
      case Delete =>
        assert GetDiffChange(Some(x)) == Change(None, true);
      case _ =>
        assert GetDiffChange(Some(x)) == Change(Some(x.text), true);
        SimilarEnoughSelf(x.text);
        ConflictAgrees(d, a.GetOr(""), x.text);
        assert MergeRow(d, row, p) == Merged([x.text], []);
    }
  }

  lemma {:induction false} ConflictAgrees(d: Depth, o: string, t: string)
    ensures Conflict(d, o, t, t) == Resolved(t, [])
    decreases Rank(d), 0, 0
  {
    if d != Sentence {
      var f := Finer(d);
      MergeAgrees(f, SplitAt(f, o), SplitAt(f, t));
    }
  }

  /** The agreement property of the whole entry point; with `o == c == p` it is the identity. */
  lemma TextMergeAgrees(o: string, c: string)
    ensures TextMerge(o, c, c) == Resolved(c, [])
  {
    MergeAgrees(File, SplitOn(o, "\n"), SplitOn(c, "\n"));
  }

  lemma TextMergeIdentity(x: string)
    ensures TextMerge(x, x, x) == Resolved(x, [])
  {
    TextMergeAgrees(x, x);
  }

  // ---------------------------------------------------------------------------
  // Fast-forward: when current still is the original, the proposal wins.
  // ---------------------------------------------------------------------------

  /** A row whose current side, if any, leaves its original line in place. */
  predicate UnchangedCurrentRow(o: seq<string>, row: MergeLine) {
    && RowShape(o, row)
    && (row.current.Some? ==> row.current.value.kind == Equal && AnchoredLine(o, row.current.value))
    && (row.proposed.Some? ==> AnchoredLine(o, row.proposed.value))
  }

  lemma RowUnchangedCurrent(d: Depth, o: seq<string>, row: MergeLine, p: seq<string>)
    requires UnchangedCurrentRow(o, row)
    ensures MergeRow(d, row, p) == Merged(NewTexts(Proposeds([row])), [])
  {
    assert [row][1..] == [];
  }

  lemma {:induction false} RowsUnchangedCurrent(d: Depth, o: seq<string>, rows: seq<MergeLine>, p: seq<string>)
    requires forall r :: r in rows ==> UnchangedCurrentRow(o, r)
    ensures MergeRows(d, rows, p) == Merged(NewTexts(Proposeds(rows)), [])
    decreases |rows|
  {
    if |rows| > 0 {
      var h, t := rows[0], rows[1..];
      RowUnchangedCurrent(d, o, h, p);
      RowsUnchangedCurrent(d, o, t, p);
      var a, b := Proposeds([h]), Proposeds(t);
      ProposedsSplit(rows);
      NewTextsAppend(a, b);
      BothClean(NewTexts(a), NewTexts(b));
    }
  }

  lemma ProposedsSplit(rows: seq<MergeLine>)
    requires |rows| > 0
    ensures Proposeds(rows) == Proposeds([rows[0]]) + Proposeds(rows[1..])
  {
    var h := if rows[0].proposed.Some? then [rows[0].proposed.value] else [];
    assert [rows[0]][1..] == [];
    assert Proposeds([rows[0]]) == h + [];
  }

  lemma BothClean(x: seq<string>, y: seq<string>)
    ensures Both(Merged(x, []), Merged(y, [])) == Merged(x + y, [])
  {
    var none: seq<string> := [];
    assert none + none == none;
  }

  /** When current is still the original, the merge returns the proposal and discards nothing. */
  lemma FastForward(d: Depth, o: seq<string>, p: seq<string>)
    ensures Merge(d, o, o, p) == Merged(p, [])
  {
    var cf, pf := Flatten(Diff(o, o)), Flatten(Diff(o, p));
    DiffSelf(o);
    var rows := Align(o, cf, pf);
    AlignShape(o, cf, pf);
    AlignCovers(o, cf, pf);
    RowsUnchangedCurrent(d, o, rows, p);
  }

  /**
   * Above the sentence level, a conflict whose current is still the original
   * resolves to the proposal: the finer merge fast-forwards and its units
   * join back to the proposed text.
   */
  lemma ConflictFastForward(d: Depth, o: string, p: string)
    requires d != Sentence
    ensures Conflict(d, o, o, p) == Resolved(p, [])
  {
    var f := Finer(d);
    FastForward(f, SplitAt(f, o), SplitAt(f, p));
  }

  lemma TextMergeFastForward(o: string, p: string)
    ensures TextMerge(o, o, p) == Resolved(p, [])
  {
    FastForward(File, SplitOn(o, "\n"), SplitOn(p, "\n"));
  }

  // ---------------------------------------------------------------------------
  // Nothing is invented: merged units and discards come from the inputs.
  // ---------------------------------------------------------------------------

  /** A row whose sides carry lines of `c` and `p` and whose original is a line of `o`. */
  predicate SourcedRow(o: seq<string>, c: seq<string>, p: seq<string>, row: MergeLine) {
    && RowShape(o, row)
    && (row.current.Some? && row.current.value.kind != Delete ==> row.current.value.text in c)
    && (row.proposed.Some? && row.proposed.value.kind != Delete ==> row.proposed.value.text in p)
  }

  /**
   * At sentence granularity every merged unit is a unit of one of the three
   * inputs; at any granularity a discard is either a proposed unit or (above
   * the sentence level) a trimmed, non-blank fragment of a conflict.
   */
  predicate SourcedFrom(d: Depth, o: seq<string>, c: seq<string>, p: seq<string>, m: Merged) {
    && (d == Sentence ==> forall x :: x in m.lines ==> x in o || x in c || x in p)
    && (forall x :: x in m.discarded ==> x in p || (d != Sentence && x != "" && Trimmed(x)))
  }

  lemma RowSourced(d: Depth, o: seq<string>, c: seq<string>, p: seq<string>, row: MergeLine)
    requires SourcedRow(o, c, p, row)
    ensures SourcedFrom(d, o, c, p, MergeRow(d, row, p))
  {
    var Change(t1, d1) := GetDiffChange(row.current);
    var Change(t2, d2) := GetDiffChange(row.proposed);
    assert t1.Some? ==> t1.value in c;
    assert t2.Some? ==> t2.value in p;
    if row.original.Some? {
      assert row.original.value == o[RowLine(row)];
    }
    if t1.Some? && t2.Some? && d1 && d2 && SimilarEnough(t1.value, t2.value) {
      var r := Conflict(d, row.original.GetOr(""), t1.value, t2.value);
      assert MergeRow(d, row, p) == Merged([r.text], r.discarded);
    }
  }

  lemma {:induction false} RowsSourced(d: Depth, o: seq<string>, c: seq<string>, p: seq<string>, rows: seq<MergeLine>)
    requires forall r :: r in rows ==> SourcedRow(o, c, p, r)
    ensures SourcedFrom(d, o, c, p, MergeRows(d, rows, p))
    decreases |rows|
  {
    if |rows| > 0 {
      RowSourced(d, o, c, p, rows[0]);
      RowsSourced(d, o, c, p, rows[1..]);
    }
  }

  lemma MergeSourced(d: Depth, o: seq<string>, c: seq<string>, p: seq<string>)
    ensures SourcedFrom(d, o, c, p, Merge(d, o, c, p))
  {
    var cf, pf := Flatten(Diff(o, c)), Flatten(Diff(o, p));
    var rows := Align(o, cf, pf);
    AlignShape(o, cf, pf);
    forall r | r in rows ensures SourcedRow(o, c, p, r) {
      if r.current.Some? && r.current.value.kind != Delete {
        NewTextsHas(cf, r.current.value);
      }
      if r.proposed.Some? && r.proposed.value.kind != Delete {
        NewTextsHas(pf, r.proposed.value);
      }
    }
    RowsSourced(d, o, c, p, rows);
  }
}

module SharedMergeExamples {
  import opened Options
  import opened Text
  import opened Splitters
  import opened EditDistance
  import opened SequenceDiff
  import opened SharedDiff
  import opened Alignment
  import opened SharedMerge

  /**
   * A line deleted only on the current side, with the proposal still holding
   * it, is put back and also reported as discarded: the merge does not
   * fast-forward from the proposal's side.
   */
  lemma CurrentDeletionReverted()
    ensures Merge(File, ["a", "b"], ["a"], ["a", "b"]) == Merged(["a", "b"], ["b"])
  {
    var o, c := ["a", "b"], ["a"];
    var cf := [FlatLine(Equal, 0, "a"), FlatLine(Delete, 1, "b")];
    var pf := [FlatLine(Equal, 0, "a"), FlatLine(Equal, 1, "b")];
    DeletionDiff();
    SelfDiff();
    DeletionAlign();
    var rows := DeletionRows();
    assert AlignDiffs(o, Diff(o, c), Diff(o, o)) == rows;
    DeletionRowsMerge();
  }

  function DeletionRows(): seq<MergeLine> {
    [ MergeLine(Some("a"), Some(FlatLine(Equal, 0, "a")), Some(FlatLine(Equal, 0, "a"))),
      MergeLine(Some("b"), Some(FlatLine(Delete, 1, "b")), Some(FlatLine(Equal, 1, "b"))) ]
  }

  lemma DeletionAlign()
    ensures Align(["a", "b"], [FlatLine(Equal, 0, "a"), FlatLine(Delete, 1, "b")],
                  [FlatLine(Equal, 0, "a"), FlatLine(Equal, 1, "b")]) == DeletionRows()
  {
    var o := ["a", "b"];
    var cf := [FlatLine(Equal, 0, "a"), FlatLine(Delete, 1, "b")];
    var pf := [FlatLine(Equal, 0, "a"), FlatLine(Equal, 1, "b")];
    var rows := DeletionRows();
    assert Align(o, cf[2..], pf[2..]) == [];
    assert Align(o, cf[1..], pf[1..]) == rows[1..];
  }

  lemma DeletionRowsMerge()
    ensures MergeRows(File, DeletionRows(), ["a", "b"]) == Merged(["a", "b"], ["b"])
  {
    var rows := DeletionRows();
    assert MergeRow(File, rows[0], ["a", "b"]) == Merged(["a"], []);
    assert MergeRow(File, rows[1], ["a", "b"]) == Merged(["b"], ["b"]);
    assert MergeRows(File, rows[2..], ["a", "b"]) == Merged([], []);
    assert MergeRows(File, rows[1..], ["a", "b"]) == Merged(["b"], ["b"]);
  }

  lemma DeletionDiff()
    ensures Flatten(Diff(["a", "b"], ["a"])) == [FlatLine(Equal, 0, "a"), FlatLine(Delete, 1, "b")]
  {
    var o, c := ["a", "b"], ["a"];
    var f := [FlatLine(Equal, 0, "a"), FlatLine(Delete, 1, "b")];
    assert Backtrack(o, c, 1, 1) == f[1..];
    assert Backtrack(o, c, 0, 0) == f;
    var ops := [DiffOp(Equal, [DiffLine(0, "a")]), DiffOp(Delete, [DiffLine(1, "b")])];
    assert Group(f[1..]) == ops[1..];
    assert Group(f) == ops;
    assert CollapseEdits(ops[1..]) == ops[1..];
    assert CollapseEdits(ops) == ops;
    assert Flatten(ops[1..]) == f[1..];
  }

  lemma SelfDiff()
    ensures Flatten(Diff(["a", "b"], ["a", "b"])) == [FlatLine(Equal, 0, "a"), FlatLine(Equal, 1, "b")]
  {
    var o := ["a", "b"];
    DiffSelf(o);
    var f := Flatten(Diff(o, o));
    assert NewTexts(f) == o;
    assert Anchored(o, f);
    assert Sorted(f);
  }

  /**
   * A conflict between "x" and "y" at file depth over an empty original
   * keeps both: the sentence-level re-merge sees two dissimilar insertions
   * and emits current's then the proposal's, so the proposal reaches the
   * result.
   */
  lemma ConflictKeepsProposal()
    ensures Conflict(File, "", "x", "y") == Resolved("xy", [])
  {
    ParagraphSplits();
    InsertsMergeWhole();
    ConflictAtFile("", "x", "y", Merged(["x", "y"], []));
    JoinXY();
    CleanedNothing();
  }

  lemma JoinXY()
    ensures Join(["x", "y"], "") == "xy"
  {
    assert ["x", "y"][1..] == ["y"];
  }

  lemma CleanedNothing()
    ensures Cleaned([]) == []
  {
  }

  lemma ConflictAtFile(o: string, c: string, p: string, m: Merged)
    requires m == Merge(Paragraph, SplitAt(Paragraph, o), SplitAt(Paragraph, c), SplitAt(Paragraph, p))
    ensures Conflict(File, o, c, p) == Resolved(Join(m.lines, ""), Cleaned(m.discarded))
  {
    assert Finer(File) == Paragraph;
  }

  lemma InsertsMergeWhole()
    ensures Merge(Paragraph, [], ["x"], ["y"]) == Merged(["x", "y"], [])
  {
    InsertDiff("x");
    InsertDiff("y");
    var row := MergeLine(None, Some(FlatLine(Insert, 0, "x")), Some(FlatLine(Insert, 0, "y")));
    InsertsAlign(row);
    InsertsMerge(row);
  }

  lemma ParagraphSplits()
    ensures SplitAt(Paragraph, "") == []
    ensures SplitAt(Paragraph, "x") == ["x"]
    ensures SplitAt(Paragraph, "y") == ["y"]
  {
    assert !IsTerminator('x') && !IsTerminator('y');
    assert SentenceMatches("x", 0) == [];
    assert SentenceMatches("y", 0) == [];
  }

  /** Diffing one line against nothing inserts it at the start. */
  lemma InsertDiff(t: string)
    ensures Flatten(Diff([], [t])) == [FlatLine(Insert, 0, t)]
  {
    var o, v := [], [t];
    assert Backtrack(o, v, 0, 1) == [];
    var f := [FlatLine(Insert, 0, t)];
    assert Backtrack(o, v, 0, 0) == f;
    var ops := [DiffOp(Insert, [DiffLine(0, t)])];
    assert Group(f) == ops;
    assert CollapseEdits(ops) == ops;
  }

  lemma InsertsAlign(row: MergeLine)
    requires row == MergeLine(None, Some(FlatLine(Insert, 0, "x")), Some(FlatLine(Insert, 0, "y")))
    ensures Align([], [FlatLine(Insert, 0, "x")], [FlatLine(Insert, 0, "y")]) == [row]
  {
    assert At([], 0) == None;
  }

  lemma InsertsMerge(row: MergeLine)
    requires row == MergeLine(None, Some(FlatLine(Insert, 0, "x")), Some(FlatLine(Insert, 0, "y")))
    ensures MergeRows(Paragraph, [row], ["y"]) == Merged(["x", "y"], [])
  {
    Dissimilar();
    RowRules(Paragraph, row, ["y"]);
    OneRow(Paragraph, row, ["y"]);
  }

  lemma OneRow(d: Depth, row: MergeLine, p: seq<string>)
    ensures MergeRows(d, [row], p) == MergeRow(d, row, p)
  {
    assert [row][1..] == [];
    var m := MergeRow(d, row, p);
    assert m.lines + [] == m.lines && m.discarded + [] == m.discarded;
  }

  /** One substitution in a one-letter text is too much for the similarity gate. */
  lemma Dissimilar()
    ensures !SimilarEnough("x", "y")
  {
    SimilarEnoughIff("x", "y");
    LevenshteinBounds("x", "y");
  }
}

=== FILE: splitters.dfy ===
/**
 * The two global regular expressions of the conflict ladder, `/\s+/g` and
 * `/([^.!?]+[.!?])/g`, written out as matchers, together with the two ways
 * the source cuts a string at their matches: the trailing-delimiter splitter
 * `splitWithTrail` (shared/diff.ts) and `String.prototype.split` with a
 * regular expression (server/diff.ts).
 */
module Splitters {
  import opened Text

  /** One match: the half-open span `[start, end)` of the input. */
  datatype Match = Match(start: nat, end: nat)

  /** Matches in order, not overlapping, starting at or after `from` and ending within `n`. */
  predicate Ordered(ms: seq<Match>, from: nat, n: nat)
    decreases |ms|
  {
    from <= n && (|ms| > 0 ==> from <= ms[0].start <= ms[0].end <= n && Ordered(ms[1..], ms[0].end, n))
  }

  /** Position `k` lies inside one of the matches. */
  predicate Covered(ms: seq<Match>, k: int) {
    exists m :: m in ms && m.start <= k < m.end
  }

  predicate IsTerminator(c: char) {
    c == '.' || c == '!' || c == '?'
  }

  /** The end of the run of non-terminator characters that begins at `i`. */
  function TextRunEnd(s: string, i: nat): (e: nat)
    requires i <= |s|
    ensures i <= e <= |s|
    ensures forall k :: i <= k < e ==> !IsTerminator(s[k])
    ensures e < |s| ==> IsTerminator(s[e])
    decreases |s| - i
  {
    if i < |s| && !IsTerminator(s[i]) then TextRunEnd(s, i + 1) else i
  }

  /** The successive matches of `/\s+/g` in `s[i..]`: every maximal run of white space. */
  function SpaceMatches(s: string, i: nat): (ms: seq<Match>)
    requires i <= |s|
    ensures Ordered(ms, i, |s|)
    ensures forall m :: m in ms ==> m.start < m.end && (m.end < |s| ==> !IsSpace(s[m.end]))
    ensures forall k :: i <= k < |s| ==> (IsSpace(s[k]) <==> Covered(ms, k))
    decreases |s| - i
  {
    if i == |s| then []
    else if IsSpace(s[i]) then
      var e := SpaceRunEnd(s, i);
      var rest := SpaceMatches(s, e);
      var ms := [Match(i, e)] + rest;
      assert Match(i, e) in ms;
      assert forall k :: e <= k < |s| && Covered(rest, k) ==> Covered(ms, k);
      assert forall k :: i <= k < e ==> Covered(ms, k);
      assert forall m :: m in rest ==> e <= m.start by { OrderedStarts(rest, e, |s|); }
      ms
    else
      var rest := SpaceMatches(s, i + 1);
      assert !Covered(rest, i) by { OrderedStarts(rest, i + 1, |s|); }
      rest
  }

  /**
   * The successive matches of `/([^.!?]+[.!?])/g` in `s[i..]`: a run of
   * non-terminators closed by one terminator. Terminators with no text before
   * them are skipped; trailing text with no terminator after it is not matched.
   */
  function SentenceMatches(s: string, i: nat): (ms: seq<Match>)
    requires i <= |s|
    ensures Ordered(ms, i, |s|)
    ensures forall m :: m in ms ==>
      && m.start + 1 < m.end <= |s|
      && IsTerminator(s[m.end - 1])
      && forall k :: m.start <= k < m.end - 1 ==> !IsTerminator(s[k])
    ensures forall k :: i <= k < |s| && !Covered(ms, k) && !IsTerminator(s[k]) ==>
      forall l :: k < l < |s| ==> !IsTerminator(s[l])
    decreases |s| - i
  {
    if i == |s| then []
    else if IsTerminator(s[i]) then
      var rest := SentenceMatches(s, i + 1);
      rest
    else
      var e := TextRunEnd(s, i);
      if e == |s| then []
      else
        var rest := SentenceMatches(s, e + 1);
        var ms := [Match(i, e + 1)] + rest;
        assert forall m :: m in rest ==> e + 1 <= m.start by { OrderedStarts(rest, e + 1, |s|); }
        assert Match(i, e + 1) in ms;
        assert forall k :: i <= k <= e ==> Covered(ms, k);
        assert forall k :: e + 1 <= k < |s| && Covered(rest, k) ==> Covered(ms, k);
        ms
  }

  lemma OrderedStarts(ms: seq<Match>, from: nat, n: nat)
    requires Ordered(ms, from, n)
    ensures forall m :: m in ms ==> from <= m.start <= m.end <= n
    decreases |ms|
  {
    if |ms| > 0 {
      OrderedStarts(ms[1..], ms[0].end, n);
      assert forall m :: m in ms ==> m == ms[0] || m in ms[1..];
    }
  }

  /** The pieces of `splitWithTrail`: each runs from the previous match end to the next match end; a tail without a match follows. */
  function TrailPieces(s: string, ms: seq<Match>, last: nat): (pieces: seq<string>)
    requires Ordered(ms, last, |s|)
    decreases |ms|
  {
    if |ms| == 0 then (if last < |s| then [s[last..]] else [])
    else [s[last..ms[0].end]] + TrailPieces(s, ms[1..], ms[0].end)
  }

  function SplitWithTrail(s: string, ms: seq<Match>): seq<string>
    requires Ordered(ms, 0, |s|)
  {
    TrailPieces(s, ms, 0)
  }

  /**
   * Piece `k` of `splitWithTrail` runs from the end of match `k - 1` (or
   * from `last`) to the end of match `k`, so it keeps that match as its
   * trailing delimiter; the text after the last match is one more piece
   * when it is not empty.
   */
  lemma {:induction false} TrailPiecesGaps(s: string, ms: seq<Match>, last: nat)
    requires Ordered(ms, last, |s|)
    ensures GapStart(ms, last, |ms|) <= |s|
    ensures |TrailPieces(s, ms, last)| == |ms| + (if GapStart(ms, last, |ms|) < |s| then 1 else 0)
    ensures forall k :: 0 <= k < |ms| ==>
      && GapStart(ms, last, k) <= ms[k].end <= |s|
      && TrailPieces(s, ms, last)[k] == s[GapStart(ms, last, k)..ms[k].end]
    ensures GapStart(ms, last, |ms|) < |s| ==> TrailPieces(s, ms, last)[|ms|] == s[GapStart(ms, last, |ms|)..]
    decreases |ms|
  {
    if |ms| > 0 {
      var ps, rest := TrailPieces(s, ms, last), ms[1..];
      TrailPiecesGaps(s, rest, ms[0].end);
      assert GapStart(ms, last, |ms|) == GapStart(rest, ms[0].end, |rest|);
      forall k | 1 <= k <= |ms|
        ensures GapStart(ms, last, k) == GapStart(rest, ms[0].end, k - 1)
        ensures k < |ps| ==> ps[k] == TrailPieces(s, rest, ms[0].end)[k - 1]
      {
      }
      forall k | 1 <= k < |ms|
        ensures ms[k] == rest[k - 1]
      {
      }
    }
  }

  /** `splitWithTrail` loses nothing: its pieces concatenate back to the input, for any ordered matches. */
  lemma {:induction false} TrailPiecesLossless(s: string, ms: seq<Match>, last: nat)
    requires Ordered(ms, last, |s|)
    ensures Join(TrailPieces(s, ms, last), "") == s[last..]
    decreases |ms|
  {
    if |ms| > 0 {
      var e := ms[0].end;
      TrailPiecesLossless(s, ms[1..], e);
      ConcatCons(s[last..e], TrailPieces(s, ms[1..], e));
      assert s[last..] == s[last..e] + s[e..];
    }
  }

  lemma SplitWithTrailLossless(s: string, ms: seq<Match>)
    requires Ordered(ms, 0, |s|)
    ensures Join(SplitWithTrail(s, ms), "") == s
  {
    TrailPiecesLossless(s, ms, 0);
  }

  /** When every match is non-empty, `splitWithTrail` never yields an empty piece. */
  lemma {:induction false} TrailPiecesNonEmpty(s: string, ms: seq<Match>, last: nat)
    requires Ordered(ms, last, |s|)
    requires forall m :: m in ms ==> m.start < m.end
    ensures forall p :: p in TrailPieces(s, ms, last) ==> |p| > 0
    decreases |ms|
  {
    if |ms| > 0 {
      TrailPiecesNonEmpty(s, ms[1..], ms[0].end);
    }
  }

  /**
   * `String.prototype.split` with a regular expression: the text between
   * matches, with each match's captured group interleaved when the expression
   * has one (`/([^.!?]+[.!?])/` captures the whole match, `/\s+/` nothing).
   */
  function RegexSplit(s: string, ms: seq<Match>, last: nat, captures: bool): (pieces: seq<string>)
    requires Ordered(ms, last, |s|)
    ensures |pieces| == (if captures then 2 * |ms| + 1 else |ms| + 1)
    decreases |ms|
  {
    if |ms| == 0 then [s[last..]]
    else
      [s[last..ms[0].start]]
      + ((if captures then [s[ms[0].start..ms[0].end]] else []) + RegexSplit(s, ms[1..], ms[0].end, captures))
  }

  /** With a capturing group covering the whole match, regular-expression splitting loses nothing. */
  lemma {:induction false} RegexSplitCapturesLossless(s: string, ms: seq<Match>, last: nat)
    requires Ordered(ms, last, |s|)
    ensures Join(RegexSplit(s, ms, last, true), "") == s[last..]
    decreases |ms|
  {
    if |ms| > 0 {
      var m := ms[0];
      var a, b, c := s[last..m.start], s[m.start..m.end], s[m.end..];
      var rest := RegexSplit(s, ms[1..], m.end, true);
      var tail := [b] + rest;
      RegexSplitCapturesLossless(s, ms[1..], m.end);
      assert RegexSplit(s, ms, last, true) == [a] + tail;
      ConcatCons(a, tail);
      ConcatCons(b, rest);
      SliceSplit(s, last, m.start, m.end);
    }
  }

  /** The texts the matches cover, in order. */
  function MatchTexts(s: string, ms: seq<Match>, last: nat): (ts: seq<string>)
    requires Ordered(ms, last, |s|)
    ensures |ts| == |ms|
    decreases |ms|
  {
    if |ms| == 0 then [] else [s[ms[0].start..ms[0].end]] + MatchTexts(s, ms[1..], ms[0].end)
  }

  /** `ps[0], seps[0], ps[1], seps[1], ..., ps[|seps|]`. */
  function Interleave(ps: seq<string>, seps: seq<string>): (r: seq<string>)
    requires |ps| == |seps| + 1
    ensures |r| == 2 * |seps| + 1
    decreases |seps|
  {
    if |seps| == 0 then ps else [ps[0]] + ([seps[0]] + Interleave(ps[1..], seps[1..]))
  }

  /** Splitting with a capture group is splitting without one, with each matched text put back between its neighbours. */
  lemma {:induction false} RegexSplitInterleaves(s: string, ms: seq<Match>, last: nat)
    requires Ordered(ms, last, |s|)
    ensures RegexSplit(s, ms, last, true) == Interleave(RegexSplit(s, ms, last, false), MatchTexts(s, ms, last))
    decreases |ms|
  {
    if |ms| > 0 {
      RegexSplitInterleaves(s, ms[1..], ms[0].end);
      var ps := RegexSplit(s, ms, last, false);
      assert ps[1..] == RegexSplit(s, ms[1..], ms[0].end, false);
    }
  }

  /** Splitting without a capture group loses exactly the matched texts: putting them back between the pieces restores the input. */
  lemma RegexSplitPlainLossless(s: string, ms: seq<Match>, last: nat)
    requires Ordered(ms, last, |s|)
    ensures Join(Interleave(RegexSplit(s, ms, last, false), MatchTexts(s, ms, last)), "") == s[last..]
  {
    RegexSplitInterleaves(s, ms, last);
    RegexSplitCapturesLossless(s, ms, last);
  }

  /** Where piece `k` of a split starts: at `last`, or at the end of the match before it. */
  function GapStart(ms: seq<Match>, last: nat, k: nat): nat
    requires k <= |ms|
  {
    if k == 0 then last else ms[k - 1].end
  }

  /** Where piece `k` of a split ends: at the start of the next match, or at the end of the input. */
  function GapEnd(ms: seq<Match>, n: nat, k: nat): nat
    requires k <= |ms|
  {
    if k == |ms| then n else ms[k].start
  }

  /** Each piece of a split without a capture group is the text between two consecutive matches. */
  lemma {:induction false} RegexSplitGaps(s: string, ms: seq<Match>, last: nat)
    requires Ordered(ms, last, |s|)
    ensures forall k :: 0 <= k <= |ms| ==>
      && GapStart(ms, last, k) <= GapEnd(ms, |s|, k) <= |s|
      && RegexSplit(s, ms, last, false)[k] == s[GapStart(ms, last, k)..GapEnd(ms, |s|, k)]
    decreases |ms|
  {
    if |ms| > 0 {
      var ps, rest := RegexSplit(s, ms, last, false), ms[1..];
      RegexSplitGaps(s, rest, ms[0].end);
      forall k | 1 <= k <= |ms|
        ensures GapStart(ms, last, k) == GapStart(rest, ms[0].end, k - 1)
        ensures GapEnd(ms, |s|, k) == GapEnd(rest, |s|, k - 1)
        ensures ps[k] == RegexSplit(s, rest, ms[0].end, false)[k - 1]
      {
      }
    }
  }

  lemma SliceSplit(s: string, i: nat, j: nat, k: nat)
    requires i <= j <= k <= |s|
    ensures s[i..] == s[i..j] + (s[j..k] + s[k..])
  {
    assert s[j..] == s[j..k] + s[k..];
    assert s[i..] == s[i..j] + s[j..];
  }
}

=== FILE: text.dfy ===
/**
 * The JavaScript string primitives the merge engine relies on: the `\s`
 * character class, `String.prototype.trim`, `Array.prototype.join`,
 * `Array.prototype.filter` and `String.prototype.split` with a string
 * separator. Strings are sequences of characters; UTF-16 surrogate pairs are
 * not distinguished from single characters.
 */
module Text {

  /** White space and line terminators, as matched by `\s` and removed by `trim`. */
  predicate IsSpace(c: char) {
    || c == ' ' || c == '\t' || c == '\n' || c == '\U{B}' || c == '\U{C}' || c == '\r'
    || c == '\U{A0}' || c == '\U{1680}' || ('\U{2000}' <= c <= '\U{200A}')
    || c == '\U{2028}' || c == '\U{2029}' || c == '\U{202F}' || c == '\U{205F}'
    || c == '\U{3000}' || c == '\U{FEFF}'
  }

  predicate AllSpace(s: string) {
    forall k :: 0 <= k < |s| ==> IsSpace(s[k])
  }

  /** Neither begins nor ends with white space. */
  predicate Trimmed(s: string) {
    |s| == 0 || (!IsSpace(s[0]) && !IsSpace(s[|s| - 1]))
  }

  /** The end of the run of white space that begins at `i`. */
  function SpaceRunEnd(s: string, i: nat): (e: nat)
    requires i <= |s|
    ensures i <= e <= |s|
    ensures forall k :: i <= k < e ==> IsSpace(s[k])
    ensures e < |s| ==> !IsSpace(s[e])
    decreases |s| - i
  {
    if i < |s| && IsSpace(s[i]) then SpaceRunEnd(s, i + 1) else i
  }

  /** Drops the leading white space. */
  function TrimStart(s: string): (r: string)
    ensures |r| <= |s| && r == s[|s| - |r|..]
    ensures AllSpace(s[..|s| - |r|])
    ensures |r| == 0 || !IsSpace(r[0])
  {
    var e := SpaceRunEnd(s, 0);
    assert forall k :: 0 <= k < e ==> s[..e][k] == s[k];
    s[e..]
  }

  /** Drops the trailing white space. */
  function TrimEnd(s: string): (r: string)
    ensures |r| <= |s| && r == s[..|r|]
    ensures AllSpace(s[|r|..])
    ensures |r| == 0 || !IsSpace(r[|r| - 1])
  {
    if |s| > 0 && IsSpace(s[|s| - 1]) then
      var r := TrimEnd(s[..|s| - 1]);
      assert s[|r|..] == s[..|s| - 1][|r|..] + [s[|s| - 1]];
      assert s[..|s| - 1][..|r|] == s[..|r|];
      r
    else s
  }

  /** `String.prototype.trim`. */
  function Trim(s: string): (r: string)
    ensures Trimmed(r)
    ensures |r| == 0 <==> AllSpace(s)
  {
    var t := TrimStart(s);
    var r := TrimEnd(t);
    assert |r| > 0 ==> r[0] == t[0];
    assert AllSpace(s) ==> |t| == 0 by {
      if |t| > 0 {
        assert t[0] == s[|s| - |t|];
      }
    }
    assert |r| == 0 ==> AllSpace(s) by {
      if |r| == 0 {
        assert t[|r|..] == t;
        assert s == s[..|s| - |t|] + t;
      }
    }
    r
  }

  /** What `Trim` keeps is one slice of `s`, with only white space cut off either side. */
  lemma TrimSlice(s: string)
    ensures exists i, j :: 0 <= i <= j <= |s| && Trim(s) == s[i..j] && AllSpace(s[..i]) && AllSpace(s[j..])
  {
    var t := TrimStart(s);
    var r := TrimEnd(t);
    var i := |s| - |t|;
    assert s[i..i + |r|] == r && s[i + |r|..] == t[|r|..];
  }

  /** `s.trim() === ''`. */
  predicate IsBlank(s: string) {
    Trim(s) == ""
  }

  /** Trimming a string that is already trimmed changes nothing, so `Trim` is idempotent. */
  lemma TrimFixesTrimmed(s: string)
    requires Trimmed(s)
    ensures Trim(s) == s
  {
  }

  lemma TrimIdempotent(s: string)
    ensures Trim(Trim(s)) == Trim(s)
  {
    TrimFixesTrimmed(Trim(s));
  }

  /** `Array.prototype.join`: the pieces with `sep` between neighbours. */
  function Join(xs: seq<string>, sep: string): string
  {
    if |xs| == 0 then "" else if |xs| == 1 then xs[0] else xs[0] + sep + Join(xs[1..], sep)
  }

  lemma JoinCons(x: string, xs: seq<string>, sep: string)
    requires |xs| > 0
    ensures Join([x] + xs, sep) == x + sep + Join(xs, sep)
  {
    assert ([x] + xs)[1..] == xs;
  }

  /** With the empty separator (`join('')`) joining is plain concatenation. */
  lemma ConcatCons(x: string, xs: seq<string>)
    ensures Join([x] + xs, "") == x + Join(xs, "")
  {
    if |xs| == 0 {
      assert [x] + xs == [x];
    } else {
      JoinCons(x, xs, "");
    }
  }

  /** `Array.prototype.filter`. */
  function Filter(xs: seq<string>, keep: string -> bool): (r: seq<string>)
    ensures |r| <= |xs|
    ensures forall x :: x in r <==> x in xs && keep(x)
    ensures forall x {:trigger multiset(r)[x]} :: multiset(r)[x] == if keep(x) then multiset(xs)[x] else 0
    ensures SubsequenceOf(r, xs)
  {
    KeptSpec(xs, keep);
    Kept(xs, keep)
  }

  /** The elements of `xs` that pass `keep`, in order. */
  function Kept(xs: seq<string>, keep: string -> bool): seq<string>
    decreases |xs|
  {
    if |xs| == 0 then [] else (if keep(xs[0]) then [xs[0]] else []) + Kept(xs[1..], keep)
  }

  lemma {:induction false} KeptSpec(xs: seq<string>, keep: string -> bool)
    ensures var r := Kept(xs, keep);
      && |r| <= |xs|
      && (forall x :: x in r <==> x in xs && keep(x))
      && (forall x {:trigger multiset(r)[x]} :: multiset(r)[x] == if keep(x) then multiset(xs)[x] else 0)
      && SubsequenceOf(r, xs)
    decreases |xs|
  {
    if |xs| > 0 {
      var rest := Kept(xs[1..], keep);
      KeptSpec(xs[1..], keep);
      assert xs == [xs[0]] + xs[1..];
      if keep(xs[0]) {
        assert ([xs[0]] + rest)[1..] == rest;
      } else {
        assert Kept(xs, keep) == rest;
      }
    }
  }

  /** Filtering a concatenation filters each part: the kept elements keep their order and repeats. */
  lemma FilterAppend(a: seq<string>, b: seq<string>, keep: string -> bool)
    ensures Filter(a + b, keep) == Filter(a, keep) + Filter(b, keep)
  {
    KeptAppend(a, b, keep);
  }

  lemma {:induction false} KeptAppend(a: seq<string>, b: seq<string>, keep: string -> bool)
    ensures Kept(a + b, keep) == Kept(a, keep) + Kept(b, keep)
    decreases |a|
  {
    if |a| > 0 {
      var x, t := a[0], a[1..];
      KeptAppend(t, b, keep);
      assert (a + b)[0] == x && (a + b)[1..] == t + b;
      var h := if keep(x) then [x] else [];
      assert h + (Kept(t, keep) + Kept(b, keep)) == (h + Kept(t, keep)) + Kept(b, keep);
    } else {
      assert a + b == b;
    }
  }

  /** `a` is `b` with some elements left out, the rest in order. */
  predicate SubsequenceOf<T(==)>(a: seq<T>, b: seq<T>)
    decreases |b|
  {
    if |a| == 0 then true
    else if |b| == 0 then false
    else (a[0] == b[0] && SubsequenceOf(a[1..], b[1..])) || SubsequenceOf(a, b[1..])
  }

  lemma TrimAllAppend(a: seq<string>, b: seq<string>)
    ensures TrimAll(a + b) == TrimAll(a) + TrimAll(b)
  {
    var l, r := TrimAll(a + b), TrimAll(a) + TrimAll(b);
    assert forall k :: 0 <= k < |l| ==> l[k] == r[k];
  }

  /** `s.trim() !== ''`, as a named test for `Filter`. */
  predicate NonBlank(s: string) {
    !IsBlank(s)
  }

  /** `xs.map(s => s.trim())`. */
  function TrimAll(xs: seq<string>): (r: seq<string>)
    ensures |r| == |xs|
    ensures forall k :: 0 <= k < |xs| ==> r[k] == Trim(xs[k])
  {
    seq(|xs|, k requires 0 <= k < |xs| => Trim(xs[k]))
  }

  /**
   * `s.indexOf(sep, from)` for a non-empty `sep`: an occurrence at or after
   * `from`, or -1; `IndexOfFirst` shows it is the leftmost one.
   */
  function IndexOf(s: string, sep: string, from: nat): (r: int)
    requires |sep| > 0 && from <= |s|
    ensures r == -1 || (from <= r && OccursAt(s, sep, r))
    decreases |s| - from
  {
    if from + |sep| > |s| then -1
    else if OccursAt(s, sep, from) then from
    else IndexOf(s, sep, from + 1)
  }

  /** No occurrence starts between `from` and the one `IndexOf` finds (or the end). */
  lemma {:induction false} IndexOfFirst(s: string, sep: string, from: nat)
    requires |sep| > 0 && from <= |s|
    ensures forall k :: from <= k < (if IndexOf(s, sep, from) == -1 then |s| else IndexOf(s, sep, from)) ==> !OccursAt(s, sep, k)
    decreases |s| - from
  {
    if from + |sep| <= |s| && !OccursAt(s, sep, from) {
      IndexOfFirst(s, sep, from + 1);
    }
  }

  /**
   * `String.prototype.split` with a string separator (and no limit). A
   * non-empty separator is searched from the left: the first piece runs up
   * to its first occurrence and the rest is the split of what follows it.
   */
  function SplitOn(s: string, sep: string): (r: seq<string>)
    ensures Join(r, sep) == s
    ensures |sep| > 0 ==> |r| > 0
    ensures |sep| > 0 ==> forall k :: 0 <= k < |r| ==> !Occurs(r[k], sep)
    ensures |sep| > 0 && IndexOf(s, sep, 0) != -1 ==> |r| > 1 && r[0] == s[..IndexOf(s, sep, 0)]
    ensures |sep| == 0 ==> |r| == |s| && forall k :: 0 <= k < |s| ==> r[k] == [s[k]]
  {
    if |sep| == 0 then
      var r := seq(|s|, k requires 0 <= k < |s| => [s[k]]);
      CharsJoin(s);
      r
    else
      SplitLeftJoins(s, sep);
      SplitLeftClean(s, sep);
      SplitLeft(s, sep)
  }

  /** The split on a non-empty separator, cut at its leftmost occurrence. */
  function SplitLeft(s: string, sep: string): (r: seq<string>)
    requires |sep| > 0
    ensures |r| > 0
    ensures IndexOf(s, sep, 0) != -1 ==> |r| > 1 && r[0] == s[..IndexOf(s, sep, 0)]
    decreases |s|
  {
    var j := IndexOf(s, sep, 0);
    if j == -1 then [s] else [s[..j]] + SplitLeft(s[j + |sep|..], sep)
  }

  lemma {:induction false} SplitLeftJoins(s: string, sep: string)
    requires |sep| > 0
    ensures Join(SplitLeft(s, sep), sep) == s
    decreases |s|
  {
    var j := IndexOf(s, sep, 0);
    if j != -1 {
      var rest := SplitLeft(s[j + |sep|..], sep);
      SplitLeftJoins(s[j + |sep|..], sep);
      JoinAround(s, sep, j, rest);
    }
  }

  lemma {:induction false} SplitLeftClean(s: string, sep: string)
    requires |sep| > 0
    ensures forall k :: 0 <= k < |SplitLeft(s, sep)| ==> !Occurs(SplitLeft(s, sep)[k], sep)
    decreases |s|
  {
    var j := IndexOf(s, sep, 0);
    IndexOfFirst(s, sep, 0);
    if j == -1 {
      NoOccurrence(s, sep, 0, |s|);
      assert s[0..|s|] == s;
    } else {
      var rest := SplitLeft(s[j + |sep|..], sep);
      SplitLeftClean(s[j + |sep|..], sep);
      NoOccurrence(s, sep, 0, j);
      assert s[0..j] == s[..j];
      CleanCons(s[..j], rest, sep);
    }
  }

  /** Cutting `s` around an occurrence of `sep` at `j`. */
  lemma JoinAround(s: string, sep: string, j: nat, rest: seq<string>)
    requires OccursAt(s, sep, j)
    requires Join(rest, sep) == s[j + |sep|..] && |rest| > 0
    ensures Join([s[..j]] + rest, sep) == s
  {
    JoinCons(s[..j], rest, sep);
    CutThree(s, j, |sep|);
  }

  lemma CutThree(s: string, j: nat, m: nat)
    requires j + m <= |s|
    ensures s == s[..j] + s[j..j + m] + s[j + m..]
  {
  }

  /** Prepending a piece free of `sep` keeps every piece free of it. */
  lemma CleanCons(x: string, rest: seq<string>, sep: string)
    requires !Occurs(x, sep)
    requires forall k :: 0 <= k < |rest| ==> !Occurs(rest[k], sep)
    ensures forall k :: 0 <= k < |rest| + 1 ==> !Occurs(([x] + rest)[k], sep)
  {
    var r := [x] + rest;
    forall k | 0 <= k < |r|
      ensures !Occurs(r[k], sep)
    {
      if k > 0 {
        assert r[k] == rest[k - 1];
      }
    }
  }

  /**
   * The split is leftmost: with no occurrence of the separator the text is
   * the only piece; otherwise the first piece runs up to the first
   * occurrence (`IndexOfFirst`) and the other pieces are the split of what
   * follows that occurrence.
   */
  lemma SplitOnLeftmost(s: string, sep: string)
    requires |sep| > 0
    ensures IndexOf(s, sep, 0) == -1 ==> SplitOn(s, sep) == [s]
    ensures IndexOf(s, sep, 0) != -1 ==>
      var j := IndexOf(s, sep, 0);
      SplitOn(s, sep) == [s[..j]] + SplitOn(s[j + |sep|..], sep)
  {
  }

  /** `sep` occurs in `s` starting at index `k`. */
  predicate OccursAt(s: string, sep: string, k: int) {
    0 <= k && k + |sep| <= |s| && s[k..k + |sep|] == sep
  }

  /** `sep` occurs somewhere inside `s`. */
  predicate Occurs(s: string, sep: string) {
    exists k :: 0 <= k <= |s| && OccursAt(s, sep, k)
  }

  lemma NoOccurrence(s: string, sep: string, from: nat, to: nat)
    requires |sep| > 0 && from <= to <= |s|
    requires forall k :: from <= k < to ==> !OccursAt(s, sep, k)
    ensures !Occurs(s[from..to], sep)
  {
    var t := s[from..to];
    forall k | OccursAt(t, sep, k)
      ensures false
    {
      assert from + k + |sep| <= to;
      var u, w := t[k..k + |sep|], s[from + k..from + k + |sep|];
      forall i | 0 <= i < |sep|
        ensures u[i] == w[i]
      {
        assert t[k + i] == s[from + k + i];
      }
      assert u == w;
      assert OccursAt(s, sep, from + k);
    }
  }

  lemma CharsJoin(s: string)
    ensures Join(seq(|s|, k requires 0 <= k < |s| => [s[k]]), "") == s
    decreases |s|
  {
    var r := seq(|s|, k requires 0 <= k < |s| => [s[k]]);
    if |s| > 0 {
      var r' := seq(|s| - 1, k requires 0 <= k < |s| - 1 => [s[1..][k]]);
      assert r == [[s[0]]] + r';
      CharsJoin(s[1..]);
      ConcatCons([s[0]], r');
      assert s == [s[0]] + s[1..];
    }
  }

  /** Splitting on a single character yields pieces free of that character. */
  lemma SplitOnCharPieces(s: string, c: char)
    ensures forall k :: 0 <= k < |SplitOn(s, [c])| ==> c !in SplitOn(s, [c])[k]
  {
    var r := SplitOn(s, [c]);
    forall k, i | 0 <= k < |r| && 0 <= i < |r[k]|
      ensures r[k][i] != c
    {
      assert !OccursAt(r[k], [c], i);
      assert r[k][i..i + 1] == [r[k][i]];
    }
  }
}

=== FILE: util.dfy ===
/** The two string helpers of the client's `util` namespace (src/util.ts). */
module Util {
  import opened Text

  /** The end index `String.prototype.slice(0, end)` uses: a negative end counts back from the length, stopping at 0. */
  function SliceEnd(len: nat, end: int): (e: nat)
    ensures e <= len
    ensures 0 <= end ==> e == if end <= len then end else len
    ensures end < 0 ==> e == if len + end < 0 then 0 else len + end
  {
    if end < 0 then (if len + end < 0 then 0 else len + end)
    else if end <= len then end
    else len
  }

  predicate EndsWithDots(s: string) {
    |s| >= 3 && s[|s| - 3..] == "..."
  }

  /**
   * `ellipsize`: a text longer than the limit becomes a prefix of it followed
   * by "...". With a limit of at least 3 the result fits in the limit and the
   * prefix is exactly `maxLength - 3` long; below 3 the slice end counts
   * back from the text's length, so the prefix drops `3 - maxLength`
   * characters (or is empty) and the result comes out longer than the limit.
   */
  function Ellipsize(text: string, maxLength: int): (r: string)
    ensures |text| <= maxLength ==> r == text
    ensures |text| > maxLength ==> EndsWithDots(r) && r[..|r| - 3] <= text
    ensures |text| > maxLength && maxLength >= 3 ==> |r| == maxLength && r[..maxLength - 3] == text[..maxLength - 3]
    ensures maxLength >= 3 ==> |r| <= maxLength
    ensures |text| > maxLength && maxLength < 3 ==> |r| > maxLength
    ensures |text| > maxLength && maxLength < 3 ==>
      r[..|r| - 3] == text[..if |text| + maxLength - 3 < 0 then 0 else |text| + maxLength - 3]
  {
    if |text| > maxLength then
      var e := SliceEnd(|text|, maxLength - 3);
      var r := text[..e] + "...";
      assert r[..|r| - 3] == text[..e];
      r
    else text
  }

  /**
   * With a limit of at least 3, the result ends in "..." exactly when the text
   * was cut or already ended that way.
   */
  lemma EllipsizeMarks(text: string, maxLength: int)
    requires maxLength >= 3
    ensures EndsWithDots(Ellipsize(text, maxLength)) <==> |text| > maxLength || EndsWithDots(text)
  {
  }

  /** Below 3 the JavaScript slice counts back from the end: the result outgrows the limit. */
  lemma EllipsizeSmallLimit()
    ensures Ellipsize("abcdef", 2) == "abcde..."
  {
    assert "abcdef"[..5] == "abcde";
  }

  /** `appendPiece`: add a piece to a delimited list held as text. */
  function AppendPiece(text: string, delim: string, append: string): (r: string)
    ensures text == "" ==> r == append
    ensures text != "" ==> |r| == |text| + |delim| + |append| && r[..|text|] == text && r[|r| - |append|..] == append
  {
    if text == "" then append
    else
      var r := text + delim + append;
      assert r[..|text|] == text;
      assert r[|r| - |append|..] == append;
      r
  }

  /** Appending a piece to a joined list is joining the list with that piece added, unless the text is empty. */
  lemma AppendPieceJoins(xs: seq<string>, delim: string, append: string)
    requires Join(xs, delim) != ""
    ensures AppendPiece(Join(xs, delim), delim, append) == Join(xs + [append], delim)
  {
    JoinTail(xs, delim, append);
  }

  /** Joining one more piece adds the delimiter and the piece at the end. */
  lemma {:induction false} JoinTail(xs: seq<string>, delim: string, append: string)
    requires |xs| > 0
    ensures Join(xs + [append], delim) == Join(xs, delim) + delim + append
    decreases |xs|
  {
    if |xs| > 1 {
      assert (xs + [append])[1..] == xs[1..] + [append];
      JoinTail(xs[1..], delim, append);
    } else {
      assert xs + [append] == [xs[0], append];
    }
  }
}
